=== FILE: README.md ===
# PyExplore core, modelled in Dafny

This project models the statistics and report engine of PyExplore, a small
pandas tool for exploratory data analysis. It covers three parts.

- **The per-column analyses** of `_DescriptiveAnalysis`:
  `feature_description`, `five_point_summary`, `deviation_analysis`,
  `outlier_analysis` and `limits_analysis`. Each one walks the columns of a
  DataFrame in order. It skips a column when nothing is left after `dropna()`
  or at most one distinct value remains, and otherwise appends one row for
  that column.
- **`run_descriptive`** of `ExploratoryDataAnalysis`. It coerces the columns
  named in `force_column` to numbers, replacing them in the caller's frame.
  It then left-joins the analysis tables on `Feature`, starting from the
  profile table.
- **`GetCorrelations`**. It checks the shape and length of the target `X2`
  and builds one correlation record per feature, or per (feature, target
  column) pair. It sorts mutual-information scores and dispatches on a
  method name.

Files, one Dafny module each:

- `wrappers.dfy`: `Option` and `Result`.
- `columns.dfy`: columns with missing cells, the exclusion rule, and
  `Tabulate`, the "one row per kept column, in order" shape of every
  analysis loop.
- `stats.dfy`: mean, minimum and maximum. The median, and scipy's mode (the
  smallest most frequent value). NumPy's linear percentile on sorted values.
  Round-half-even rounding.
- `tables.dfy`: result tables, pandas' left merge on `Feature`, and the
  `reduce` of merges.
- `descriptive.dfy`: the five analyses. Each is a column loop proved equal to
  its specification function, with lemmas stating what each row holds.
- `report.dfy`: the analysis tables `run_descriptive` merges, and the merged
  report as a function of the columns.
- `report_facts.dfy`: what the merged report holds: its keys, header and
  rows, and when it fails.
- `explore.dfy`: the `DataFrame` class, forced numeric coercion and
  `run_descriptive`.
- `correlations.dfy`: `GetCorrelations`.

Numbers are exact reals. A missing cell is `None`. A column is either
numeric (int64 or float64 values) or an object column of text cells.

Three things are parameters of the model:

- pandas' text-to-number parsing;
- NumPy/SciPy's standard deviation, skewness and kurtosis;
- scipy/sklearn's correlation estimators.

Points of the code's behaviour worth stating:

- **Missing cells count as outliers.** `outlier_analysis` and
  `limits_analysis` count `data[~((col >= lo) & (col <= hi))]`. Every
  comparison with NaN is false, so a row missing in that column is counted.
  `OutsideCountSplit` states the count as missing rows plus present values
  strictly outside the interval. `AgeExample` is a worked example: ages 18,
  25, 60, 45 and one missing value, against bounds 18..50, give a count
  of 2, the 60 and the missing age.
- **The profile applies the exclusion rule too.** `feature_description`
  skips degenerate columns like the other analyses do
  (PyExplore/src/descriptive_analysis.py:34-37).
- **Standard deviation uses NumPy's default divisor `n`**, not `n − 1`
  (PyExplore/src/descriptive_analysis.py:89). The moments are a parameter
  here, so only the row structure is modelled.
- **`series_name` defaults to `series`** (PyExplore/src/correlations.py:36
  and :60). `run_corelation` passes it on only when the caller gives it.

## Model

| member | source | states |
|---|---|---|
| Columns.IsKept | PyExplore/src/descriptive_analysis.py:35 | Defines the exclusion test: some value survives `dropna()` and more than one distinct value does. `KeptMembers` and `KeptCounts` state what it means. |
| Columns.Tabulate | PyExplore/src/descriptive_analysis.py:34-43 | Defines the loop shape shared by the analyses: skip an excluded column, else append its row. `TabulateIsMapOfKept`, `TabulateAppend` and `DropExcluded` state its properties. |
| Columns.KeptMembers | PyExplore/src/descriptive_analysis.py:34-37 | A column is among the kept ones exactly when it is an input column that has at least one present value and at least two distinct present values. |
| Columns.TabulateIsMapOfKept | PyExplore/src/descriptive_analysis.py:56-59 | Every analysis table has one row per kept column, in input column order; row i is the row built for the i-th kept column. |
| Columns.KeptAppend | PyExplore/src/descriptive_analysis.py:81-84 | The kept columns of two column groups side by side are the kept columns of each group, concatenated. |
| Columns.TabulateAppend | PyExplore/src/descriptive_analysis.py:103-106 | Column independence: the table of two column groups side by side is the two groups' tables concatenated. |
| Columns.DropExcluded | PyExplore/src/descriptive_analysis.py:132-135 | Removing an excluded column from anywhere in the input leaves every analysis table unchanged. |
| Columns.KeptCounts | PyExplore/src/descriptive_analysis.py:35 | A kept column has 2 ≤ distinct ≤ non-missing ≤ rows, and at least two fewer missing cells than rows. |
| Columns.KeptUniqueNames | PyExplore/src/descriptive_analysis.py:39-43 | Unique input labels stay unique among the kept columns, so every table has unique `Feature` keys. |
| Columns.DropnaMembers | PyExplore/src/descriptive_analysis.py:40 | A value survives `dropna()` exactly when some cell holds it. |
| Columns.UniqueBound | PyExplore/src/descriptive_analysis.py:42 | `nunique()` never exceeds the non-missing count. |
| DescriptiveAnalysis.ProfileOf | PyExplore/src/descriptive_analysis.py:39-43 | Defines the profile row of one column. `ProfileFacts` states what it holds. |
| DescriptiveAnalysis.ProfileFacts | PyExplore/src/descriptive_analysis.py:39-43 | For a kept column the profile row has the label and kind. Initial Rows is the column length. Non Null Rows is the non-missing count, at most Initial Rows. Unique Values is the distinct count of the non-missing cells, between 2 and Non Null Rows. Null Percent is the null share rounded to two decimals. The unrounded share lies in [0, 100), and Null Percent lies in [0, 100], within 0.005 of it. |
| DescriptiveAnalysis.FeatureDescription | PyExplore/src/descriptive_analysis.py:31-49 | The loop's rows are the profile rows of the kept columns, in order. |
| DescriptiveAnalysis.SummaryOf | PyExplore/src/descriptive_analysis.py:61-70 | Defines the five-point row of one column, undefined for a text column. `SummaryFacts` states what it holds. |
| DescriptiveAnalysis.SummaryFacts | PyExplore/src/descriptive_analysis.py:61-70 | For a kept numeric column, Minimum and Maximum are the least and greatest present values, with Minimum < Maximum. Mode is a most frequent present value, the smallest on ties, and lies between them. Mean is the mean of the present values rounded to two decimals, and Median is their median rounded half to even. Both lie within rounding distance of [Minimum, Maximum]. A kept non-numeric column gets all five fields undefined. |
| DescriptiveAnalysis.FivePointSummary | PyExplore/src/descriptive_analysis.py:53-74 | The loop's rows are the five-point rows of the kept columns, in order. |
| DescriptiveAnalysis.DeviationAnalysis | PyExplore/src/descriptive_analysis.py:78-96 | One row per kept column, in order: the moments of the present values for a numeric column, undefined fields otherwise. |
| DescriptiveAnalysis.OutsideCount | PyExplore/src/descriptive_analysis.py:117 | The number of rows for which `(col >= lo) & (col <= hi)` is false, missing rows included; never more than the rows. `OutsideCountSplit` characterises it. |
| DescriptiveAnalysis.OutsideCountSplit | PyExplore/src/descriptive_analysis.py:117 | The negated range test counts every missing row plus every present value strictly outside [lo, hi]. |
| DescriptiveAnalysis.OutsideCountMonotone | PyExplore/src/descriptive_analysis.py:117 | Narrowing the interval can only raise the count. |
| DescriptiveAnalysis.CountOutside | PyExplore/src/descriptive_analysis.py:143 | The counting loop computes the count of rows outside [lo, hi]. |
| DescriptiveAnalysis.IqrFacts | PyExplore/src/descriptive_analysis.py:111-117 | The quartiles of the sorted present values satisfy min ≤ q25 ≤ q75 ≤ q99 ≤ max. IQR = q75 − q25 ≥ 0. The fences are 1.5·IQR outside the quartiles and 4·IQR apart. The count is taken against those fences. |
| DescriptiveAnalysis.FencesFacts | PyExplore/src/descriptive_analysis.py:113-114 | Given ordered quartiles, the IQR is non-negative, LL_IQR ≤ q25, q75 ≤ UL_IQR, and UL_IQR − LL_IQR = 4·IQR. |
| DescriptiveAnalysis.OutlierOf | PyExplore/src/descriptive_analysis.py:108-121 | Defines the quantile row of one column, undefined for a text column. `OutlierFacts` states what it holds. |
| DescriptiveAnalysis.OutlierFacts | PyExplore/src/descriptive_analysis.py:108-121 | The quantile row of a kept numeric column has ordered quartiles within [min, max] and fences at 1.5·IQR. Its outlier count is at most the column length: every missing row plus every present value outside the fences. A non-numeric column gets undefined fields. |
| DescriptiveAnalysis.NarrowerFencesMoreOutliers | PyExplore/src/descriptive_analysis.py:114-117 | Lowering the multiplier from 1.5 to any k in [0, 1.5] cannot lower the outlier count. |
| DescriptiveAnalysis.OutlierAnalysis | PyExplore/src/descriptive_analysis.py:100-125 | The loop's rows are the quantile rows of the kept columns, in order. |
| DescriptiveAnalysis.ColumnIqr | PyExplore/src/descriptive_analysis.py:111-117 | The percentiles, IQR, fences and outlier count computed for one column are those of its sorted present values. |
| DescriptiveAnalysis.LimitsRowFacts | PyExplore/src/descriptive_analysis.py:139-147 | A feature with bounds gets UL_Actual/LL_Actual copied from the mapping. Its count is at most the column length: missing rows plus present values outside the bounds. A feature without bounds gets undefined fields, never a zero count. |
| DescriptiveAnalysis.LimitsSpec | PyExplore/src/descriptive_analysis.py:132-149 | Defines the limits table, or the TypeError at the first kept text column that has bounds. `LimitsSpecCharacterised` and `LimitsSpecFailsFrom` state its properties. |
| DescriptiveAnalysis.LimitsSpecCharacterised | PyExplore/src/descriptive_analysis.py:132-149 | limits_analysis succeeds exactly when no kept text column has bounds, and then has one row per kept column, in order. Otherwise it raises TypeError naming the first kept text column with bounds. |
| DescriptiveAnalysis.LimitsSpecFailsFrom | PyExplore/src/descriptive_analysis.py:132-143 | An error raised at some column aborts the loop: the whole call fails with that error, whatever columns follow. |
| DescriptiveAnalysis.LimitsAnalysis | PyExplore/src/descriptive_analysis.py:129-151 | The loop returns the limits table or the error specified above. |
| DescriptiveAnalysis.AgeExample | PyExplore/src/descriptive_analysis.py:139-144 | Ages [18, 25, 60, 45, missing] with bounds 18..50: kept, Null Percent 20.0, Unique Values 4, limits row (50, 18, 2). |
| DescriptiveAnalysis.ProfileTable | PyExplore/src/descriptive_analysis.py:45-47 | The profile DataFrame has `Feature` first and one row per profile row, keyed by its feature. |
| DescriptiveAnalysis.SummaryTable | PyExplore/src/descriptive_analysis.py:72 | The five-point DataFrame has `Feature` first and one row per summary row, keyed by its feature. |
| DescriptiveAnalysis.DeviationTable | PyExplore/src/descriptive_analysis.py:94 | The deviation DataFrame has `Feature` first and one row per deviation row, keyed by its feature. |
| DescriptiveAnalysis.OutlierTable | PyExplore/src/descriptive_analysis.py:123 | The quantile DataFrame has `Feature` first and one row per outlier row, keyed by its feature. |
| DescriptiveAnalysis.LimitsTable | PyExplore/src/descriptive_analysis.py:149 | The limits DataFrame has `Feature` first and one row per limits row, keyed by its feature. |
| Stats.Mean | PyExplore/src/descriptive_analysis.py:65 | Defines `np.mean` on exact reals: the sum divided by the count. `MeanBounds` states it lies between the minimum and the maximum. |
| Stats.Median | PyExplore/src/descriptive_analysis.py:65 | Defines `np.median`: the middle value of the sorted values, or the average of the two middle values. `MedianBounds` and `MedianIsPercentile50` state its properties. |
| Stats.Percentile | PyExplore/src/descriptive_analysis.py:111 | Defines NumPy's linear percentile of sorted values. `PercentileBounds`, `PercentileMonotone` and `QuartilesOrdered` state its properties. |
| Stats.Min | PyExplore/src/descriptive_analysis.py:65 | `np.min` is a present value no larger than any other. |
| Stats.Max | PyExplore/src/descriptive_analysis.py:66 | `np.max` is a present value no smaller than any other. |
| Stats.MinBelowMax | PyExplore/src/descriptive_analysis.py:65-66 | Two different values force minimum < maximum. |
| Stats.MeanBounds | PyExplore/src/descriptive_analysis.py:65 | The mean lies between the minimum and the maximum. |
| Stats.Mode | PyExplore/src/descriptive_analysis.py:65 | scipy's mode is a present value with the highest count, and the smallest such value. |
| Stats.Sort | PyExplore/src/descriptive_analysis.py:111 | Sorting yields an ascending permutation of the values. |
| Stats.MedianBounds | PyExplore/src/descriptive_analysis.py:65 | The median lies between the minimum and the maximum. |
| Stats.MedianIsPercentile50 | PyExplore/src/descriptive_analysis.py:65 | `np.median` equals the linear 50th percentile of the sorted values. |
| Stats.PercentileBounds | PyExplore/src/descriptive_analysis.py:111 | A linear percentile of sorted values lies between the first and last value. |
| Stats.PercentileMonotone | PyExplore/src/descriptive_analysis.py:111 | A higher percentile is never smaller. |
| Stats.QuartilesOrdered | PyExplore/src/descriptive_analysis.py:111 | min ≤ P25 ≤ P75 ≤ P99 ≤ max. |
| Stats.RoundHalfEven | PyExplore/src/descriptive_analysis.py:65 | Python's `round` to an integer is within 0.5 of its argument and picks the even integer at a tie. |
| Stats.Round2 | PyExplore/src/descriptive_analysis.py:41 | `round(x, 2)` is within 0.005 of x. |
| Stats.Round2Range | PyExplore/src/descriptive_analysis.py:41 | A percentage in [0, 100] stays in [0, 100] after rounding. |
| Tables.LeftJoin | PyExplore/explore.py:46 | A left merge keeps the left labels and appends the right table's non-key labels. It never loses a left row. |
| Tables.LeftJoinKeepsLeftRows | PyExplore/explore.py:46 | With unique right keys, the merge has exactly the left rows in left order. Each is extended by its match's non-key cells, or by NaN when nothing matches. |
| Tables.LeftJoinAligned | PyExplore/explore.py:49 | When both tables carry the same keys in the same order, row i of the merge is left row i followed by right row i without its key. |
| Tables.MergeAll | PyExplore/explore.py:49 | The `reduce` of merges has the first table's labels followed by each later table's non-key labels, and at least the first table's rows. |
| Tables.MergeAllKeepsFirstKeys | PyExplore/explore.py:49 | With unique keys in every later table, the report's `Feature` column is the first table's. |
| Tables.MergeAllAligned | PyExplore/explore.py:46 | For aligned tables, the report has one row per key, and row i is row i of every table side by side. |
| Tables.MergeAllOnKeys | PyExplore/explore.py:49 | Tables that all carry the same distinct keys in the same order merge into one row per key, keyed the same way, each row the tables' rows side by side. |
| Explore.Coerce | PyExplore/explore.py:37 | `pd.to_numeric(errors='coerce')` keeps the label and the length and yields a numeric column. A cell is present exactly when the text was present and parses, and then holds the parsed number. A numeric column is unchanged. |
| Explore.CoerceIdempotent | PyExplore/explore.py:37 | Coercing a coerced column changes nothing. |
| Explore.CoerceAll | PyExplore/explore.py:35-37 | The frame after coercing the named columns one after the other; same number of columns. `CoerceAllPointwise` and `CoerceAllNames` state its effect. |
| Explore.CoerceAllPointwise | PyExplore/explore.py:35-37 | After the loop, each column whose label is named is replaced by its coercion, and every other column is unchanged. |
| Explore.CoerceAllNames | PyExplore/explore.py:36-37 | Coercion keeps every label, so the labels stay unique. |
| Explore.Position | PyExplore/explore.py:37 | `data[name]` finds the column carrying that label, or fails exactly when no column does. |
| Explore.FirstMissing | PyExplore/explore.py:36-37 | The loop gets through exactly the names before the first one that is not a label. |
| Explore.DataFrame.ForceNumeric | PyExplore/explore.py:35-37 | The named columns are coerced in place, in order. At the first name that is not a label, KeyError is raised, with the earlier columns already coerced. Labels stay unique. |
| ReportFacts.KeptKeysUnique | PyExplore/explore.py:39 | The kept labels, the key column of every table, are unique. |
| ReportFacts.LimitsReportRows | PyExplore/src/descriptive_analysis.py:131-149 | When limits_analysis succeeds, its table has one row per kept column, in column order. Each row is the limits row of that column: its bounds and count when it has limits, NaN cells otherwise. Each such column is comparable with its bounds. |
| ReportFacts.AnalysisKeys | PyExplore/explore.py:39-45 | fd, fps, da, oa and la all carry the kept labels as keys, in column order. |
| MergedReport.AnalysisTables | PyExplore/explore.py:44-49 | The join covers the limits table exactly when `limits` is given: five tables then, four otherwise. |
| MergedReport.Report | PyExplore/explore.py:39-49 | Defines the returned table: the left merges of the analysis tables, or the error limits_analysis raises. `ReportAligned`, `ReportShape`, `ReportRowIs` and `ReportFails` state what it holds. |
| ReportFacts.ReportRows | PyExplore/explore.py:39-42 | Row i of each of fd, fps, da, oa is that analysis's row for the i-th kept column. |
| ReportFacts.ReportAligned | PyExplore/explore.py:46-49 | With unique labels the report has exactly the profile table's rows, in order, neither dropped nor duplicated. Row i is row i of every analysis table side by side. |
| ReportFacts.ReportShape | PyExplore/explore.py:46-49 | With unique labels the report's `Feature` column is the kept labels in column order. Its header is the profile labels followed by each later table's non-key labels, the limits labels only when limits are given. |
| ReportFacts.ReportLabelsDistinct | PyExplore/explore.py:46 | The labels of fd, fps, da, oa and la share only `Feature`, so no merge suffixes a label with `_x`/`_y`. |
| ReportFacts.ReportRowIs | PyExplore/explore.py:44-49 | Report row i is the i-th kept column's profile row followed by its five-point, deviation and quantile cells, and its limits cells when limits are given. |
| ReportFacts.ReportHeader | PyExplore/explore.py:46-49 | The report's labels are the profile labels followed by the later tables' non-key labels in join order. |
| ReportFacts.ReportFails | PyExplore/explore.py:44-45 | The report fails exactly when limits are given and some kept column is a text column that has bounds, the case in which limits_analysis raises. |
| Explore.RunDescriptive | PyExplore/explore.py:32-56 | The frame ends coerced as above. A missing force_column label raises KeyError. Otherwise the returned table is the merged report, whether or not a save path is given. |
| Correlations.PointBiserialSpec | PyExplore/src/correlations.py:13-27 | Defines point_biserial_df: the three checks in source order, then one record per feature. `PointBiserialChecks` and `BiserialRecordsFacts` state its properties. |
| Correlations.BiserialRecordsFacts | PyExplore/src/correlations.py:23-25 | One record per X1 column, in column order, holding that column's coefficient and p-value, with Abs Corr = abs(Corr) ≥ 0. |
| Correlations.PointBiserialChecks | PyExplore/src/correlations.py:13-19 | A DataFrame target fails with the DataFrame error. Otherwise a 2-D target with more than one column fails with the shape error. Otherwise unequal row counts fail with the length error. Records are built exactly when none of the function's own checks applies, one per X1 column. Errors raised inside scipy are not modelled (see Left out). |
| Correlations.PointBiserial | PyExplore/src/correlations.py:11-32 | The checks and the column loop give the point-biserial records or the first error. |
| Correlations.PairwiseSpec | PyExplore/src/correlations.py:38-51 | Defines spearman_corr_df and pearson_corr_df: the length check, then the nested record loops. `PairwiseLength`, `PairRecordsCross` and `PairRecordsVector` state its properties. |
| Correlations.SeriesName | PyExplore/src/correlations.py:36 | Defines the `series_name` label: the keyword when given, `series` otherwise. `DefaultSeriesLabel` states the default end to end. |
| Correlations.PairsWithIndex | PyExplore/src/correlations.py:44-46 | The inner loop's record j pairs the feature with X2's column j. |
| Correlations.PairRecordsCross | PyExplore/src/correlations.py:42-46 | With a DataFrame X2 there are len(X1 cols)·len(X2 cols) records. Record i·len(X2 cols)+j pairs X1 column i with X2 column j, carrying their coefficient, p-value and its absolute value. |
| Correlations.PairRecordsVector | PyExplore/src/correlations.py:47-49 | With a vector X2 there is one record per X1 column, in order, with Feature 2 = series_name and abs = abs(signed). |
| Correlations.PairwiseLength | PyExplore/src/correlations.py:62 | Among the function's own checks, Spearman/Pearson fail exactly on unequal row counts, before any record is built. Errors raised inside scipy are not modelled (see Left out). |
| Correlations.Pairwise | PyExplore/src/correlations.py:59-80 | The nested loops give the Pearson (or Spearman) records or the length error. |
| Correlations.MiRecords | PyExplore/src/correlations.py:92-93 | Defines the per-column MI records, one (label, score) pair per X1 column. `MutualInfoFacts` states what the sorted table holds. |
| Correlations.SortByMi | PyExplore/src/correlations.py:94 | Sorting by score descending yields a descending permutation. |
| Correlations.MutualInfoSpec | PyExplore/src/correlations.py:85-94 | Defines mutual_info_gain_df: the length check, the shape check, then the records sorted by score. `MutualInfoOutcome`, `MutualInfoFacts` and `CheckOrderDiffers` state its properties. |
| Correlations.MutualInfoFacts | PyExplore/src/correlations.py:85-94 | The output is a permutation of the (feature, score) records, one per X1 column, sorted by score, highest first. |
| Correlations.MutualInfoOutcome | PyExplore/src/correlations.py:85-94 | On the function's own checks, mutual_info_gain_df succeeds exactly when X1 and the target have the same length and the target is one-dimensional. Errors raised inside sklearn are not modelled (see Left out). A length mismatch fails with the length error whatever the shape. A target of the right length that is not one-dimensional fails with the shape error. |
| Correlations.CheckOrderDiffers | PyExplore/src/correlations.py:85-88 | A corollary of `MutualInfoOutcome` and `PointBiserialChecks`: mutual_info_gain_df checks the length before the shape, so a wide target of the wrong length fails on its length there. point_biserial_df fails on the shape. |
| Correlations.ParseMethodExact | PyExplore/src/correlations.py:104-116 | Exactly `point_bi`, `spearman`, `pearson` and `mutual_info_gain` are accepted, each selecting its own method. Anything else is rejected. |
| Correlations.CorrelationSpec | PyExplore/src/correlations.py:104-118 | Defines run_corelation's if/elif dispatch. `ParseMethodExact` and `CorrelationDispatch` state its properties. |
| Correlations.CorrelationDispatch | PyExplore/src/correlations.py:102-118 | An unknown name raises ValueError, and only an unknown name does. A known name returns that method's table with that method's labels when its builder succeeds, and exactly its builder's error when it fails. |
| Correlations.DefaultSeriesLabel | PyExplore/src/correlations.py:47-49 | Spearman or Pearson called without `series_name` on a vector target give one record per feature, each with `Feature 2` = `series`. |
| Correlations.RunCorrelation | PyExplore/src/correlations.py:102-118 | The dispatcher returns what the selected builder returns. |

## Left out

- Printing the warnings, `to_csv` writes and `print(db_stats)`. None of them changes the returned table. The `save_path` argument is not a parameter of the model.
- The plotting module (univariate_analysis.py), `run_univariate`, the empty `run_bivariate`/`run_multivariate`/`run_correlations`, main.py and the `__main__` block of correlations.py. These do plotting or read CSV files.
- `dataset_statistics`. Its values are never returned.
- Floating point is modelled as exact reals. NaN coefficients from scipy (for example on a constant column) are not modelled. An undefined statistic is `None` or the `NaN` cell.
- The moments of `deviation_analysis`: standard deviation, skewness and kurtosis are a function parameter.
- pandas' string-to-number parsing in `pd.to_numeric` is a function parameter.
- Column kinds: the model has int64/float64 columns and object columns of text. Other dtypes are not modelled: bool, int32 and float32 columns (compared with bounds without error at descriptive_analysis.py:143, returned unchanged by `pd.to_numeric` at explore.py:37, and non-numeric at :63), and category columns (whose `np.array` may be int64 and pass the test at :63).
- Columns.DataType: `Data_Type` (descriptive_analysis.py:40) is the column's exact dtype in pandas. The model records only numeric or text.
- Explore.DataFrame.ForceNumeric: requires unique column labels. With duplicate labels `data[name]` is a DataFrame, and the model does not cover that.
- Explore.RunDescriptive: requires unique column labels, and so do the report lemmas in ReportFacts. With a duplicated label, `data[feature]` at descriptive_analysis.py:35 is a DataFrame. If dropping every row with a missing cell in any of the copies leaves no rows, the first test of the `or` holds and pandas skips the label with a warning. Otherwise `nunique() <= 1` is a Series and the `if` raises ValueError, because a Series has no single truth value. The model neither skips the label on that test nor raises that error.
- DescriptiveAnalysis.FeatureDescription, FivePointSummary, DeviationAnalysis, OutlierAnalysis and LimitsAnalysis: with duplicated labels these loops test each column on its own and emit one row per kept column. At :35, :57, :82, :104 and :133 pandas instead skips the label (when the de-nulled sub-frame is empty) or raises the ValueError above.
- Tables.LeftJoin: when the two tables share a non-key label, pandas renames both copies with `_x`/`_y`. The model concatenates labels as they stand. ReportLabelsDistinct shows the report never meets that case.
- Stats.Mode: `st.mode(data_vals).mode[0]` (descriptive_analysis.py:65) assumes scipy before 1.11, where `.mode` is an array. From scipy 1.11 `.mode` is a scalar and indexing it raises IndexError. The model follows the earlier behaviour.
- DescriptiveAnalysis.LimitsRowOf: a limits entry without `lower_lim` or `upper_lim` keys (a KeyError in the source) cannot be expressed, because bounds are a record with both fields.
- Correlations.MutualInfoFacts: sklearn's `mutual_info_classif` is a per-column function parameter, with its random noise fixed by the caller. `sort_values` uses an unstable sort, so the order among equal scores is only stated to be some order. The model picks one.
- Correlations.Pairwise: a vector target that is a wide array makes scipy return coefficient matrices. The model passes the flattened values to a real-valued estimator instead.
- Correlations: errors raised inside scipy and sklearn are not modelled, because the estimators are total function parameters. `st.pearsonr` and `st.pointbiserialr` (correlations.py:24, :69, :72) raise ValueError on fewer than 2 rows. `mutual_info_classif` (correlations.py:92) raises ValueError on a continuous target ("Unknown label type") and on empty input. On such inputs the model returns records where the source raises.
- Correlations: X1 columns are read by position. pandas reads them by label, which is the same when labels are unique. A 0-dimensional target is not modelled.

=== FILE: columns.dfy ===
/**
 * The dataset seen by the descriptive analyses: an ordered list of named
 * columns with missing cells, and the exclusion rule every analysis applies
 * before it emits a row for a column.
 */
module Columns {
  import opened Wrappers

  /** The kind of a column: numeric for an int64 or float64 column, other
      for an object column of text cells. These are the two kinds the model
      carries; other dtypes are not part of this model. */
  datatype Kind = Numeric | Other

  /** One named column; a missing cell is `None`. `OtherColumn` is an object
      column holding text: ordering its cells against a number raises
      TypeError, and `pd.to_numeric` parses each cell. */
  datatype Column =
    | NumericColumn(name: string, nums: seq<Option<real>>)
    | OtherColumn(name: string, texts: seq<Option<string>>)
  {
    /** The `Data_Type` reported by the profile. */
    function DataType(): Kind {
      if NumericColumn? then Numeric else Other
    }

    /** `data[feature].shape[0]`: number of rows, missing cells included. */
    function Rows(): nat {
      if NumericColumn? then |nums| else |texts|
    }

    /** `data[feature].dropna().shape[0]`. */
    function NonNull(): (n: nat)
      ensures n <= Rows()
    {
      if NumericColumn? then |Dropna(nums)| else |Dropna(texts)|
    }

    /** `data[feature].isna().sum()`. */
    function Missing(): nat {
      Rows() - NonNull()
    }

    /** `data[feature].nunique()`: distinct non-missing values. */
    function Unique(): nat {
      if NumericColumn? then |Distinct(nums)| else |Distinct(texts)|
    }
  }

  /** The non-missing cells, in order (`dropna`). */
  function Dropna<T>(cells: seq<Option<T>>): (r: seq<T>)
    ensures |r| <= |cells|
  {
    if cells == [] then []
    else
      Dropna(cells[..|cells| - 1]) +
      (match cells[|cells| - 1] case Some(v) => [v] case None => [])
  }

  /** The set of distinct non-missing values. */
  function Distinct<T>(cells: seq<Option<T>>): set<T> {
    set x | x in Dropna(cells)
  }

  /** A value is a present cell exactly when it occurs in `Dropna`. */
  lemma {:induction false} DropnaMembers<T>(cells: seq<Option<T>>, x: T)
    ensures x in Dropna(cells) <==> Some(x) in cells
  {
    if cells != [] {
      var init := cells[..|cells| - 1];
      DropnaMembers(init, x);
      assert cells == init + [cells[|cells| - 1]];
    }
  }

  /** The set of elements of a sequence is no larger than the sequence. */
  lemma {:induction false} ElementsBound<T>(s: seq<T>)
    ensures |set x | x in s| <= |s|
  {
    if s != [] {
      var init := s[..|s| - 1];
      ElementsBound(init);
      assert (set x | x in s) == (set x | x in init) + {s[|s| - 1]} by {
        assert s == init + [s[|s| - 1]];
      }
    }
  }

  /** `nunique()` never exceeds the non-missing count. */
  lemma UniqueBound(c: Column)
    ensures c.Unique() <= c.NonNull()
  {
    match c
    case NumericColumn(_, xs) => ElementsBound(Dropna(xs));
    case OtherColumn(_, ts) => ElementsBound(Dropna(ts));
  }

  /** The exclusion rule (descriptive_analysis.py): a column is skipped when
      nothing is left after `dropna()` or at most one distinct value remains. */
  predicate IsKept(c: Column) {
    !(c.NonNull() == 0 || c.Unique() <= 1)
  }

  /** A kept column has at least two distinct values, so at least two present
      cells and at most `Rows() - 2` missing ones. */
  lemma KeptCounts(c: Column)
    requires IsKept(c)
    ensures 2 <= c.Unique() <= c.NonNull() <= c.Rows()
    ensures c.Missing() + 2 <= c.Rows()
  {
    UniqueBound(c);
  }

  /** The kept columns, in input order. */
  function Kept(cols: seq<Column>): (ks: seq<Column>)
    ensures |ks| <= |cols|
  {
    if cols == [] then []
    else
      Kept(cols[..|cols| - 1]) +
      (if IsKept(cols[|cols| - 1]) then [cols[|cols| - 1]] else [])
  }

  /** One row per kept column, in input column order: the shape of the
      `for feature in data.columns: ... continue ... append` loops. */
  function Tabulate<R>(cols: seq<Column>, f: Column --> R): seq<R>
    requires forall c :: c in cols && IsKept(c) ==> f.requires(c)
  {
    if cols == [] then []
    else
      var init := cols[..|cols| - 1];
      assert forall c :: c in init ==> c in cols;
      Tabulate(init, f) +
      (if IsKept(cols[|cols| - 1]) then [f(cols[|cols| - 1])] else [])
  }

  /** The step a column loop takes: append the row of the next column, or
      nothing when that column is excluded. */
  lemma TabulateSnoc<R>(cols: seq<Column>, c: Column, f: Column --> R)
    requires forall d :: d in cols + [c] && IsKept(d) ==> f.requires(d)
    ensures forall d :: d in cols && IsKept(d) ==> f.requires(d)
    ensures Tabulate(cols + [c], f) ==
            Tabulate(cols, f) + (if IsKept(c) then [f(c)] else [])
  {
    assert (cols + [c])[..|cols|] == cols;
  }

  /** One iteration of a column loop, stated on the prefix it has walked. */
  lemma TabulateStep<R>(cols: seq<Column>, i: nat, f: Column --> R)
    requires i < |cols|
    requires forall d :: d in cols && IsKept(d) ==> f.requires(d)
    ensures forall d :: d in cols[..i] && IsKept(d) ==> f.requires(d)
    ensures forall d :: d in cols[..i + 1] && IsKept(d) ==> f.requires(d)
    ensures Tabulate(cols[..i + 1], f) ==
            Tabulate(cols[..i], f) + (if IsKept(cols[i]) then [f(cols[i])] else [])
  {
    assert cols[..i + 1] == cols[..i] + [cols[i]];
    assert forall d :: d in cols[..i + 1] ==> d in cols;
    TabulateSnoc(cols[..i], cols[i], f);
  }

  /** A column is kept exactly when it is an input column satisfying the rule. */
  lemma {:induction false} KeptMembers(cols: seq<Column>, c: Column)
    ensures c in Kept(cols) <==> c in cols && IsKept(c)
  {
    if cols != [] {
      var init := cols[..|cols| - 1];
      KeptMembers(init, c);
      assert cols == init + [cols[|cols| - 1]];
    }
  }

  /** Column independence: the analysis of two column groups side by side is
      the analysis of each group, concatenated. */
  lemma {:induction false} KeptAppend(a: seq<Column>, b: seq<Column>)
    ensures Kept(a + b) == Kept(a) + Kept(b)
  {
    if b != [] {
      var init := b[..|b| - 1];
      KeptAppend(a, init);
      assert (a + b)[..|a + b| - 1] == a + init;
    } else {
      assert a + b == a;
    }
  }

  /** Every row of a tabulation is the row of the kept column at that place. */
  lemma {:induction false} TabulateIsMapOfKept<R>(cols: seq<Column>, f: Column --> R)
    requires forall c :: c in cols && IsKept(c) ==> f.requires(c)
    ensures |Tabulate(cols, f)| == |Kept(cols)|
    ensures forall i :: 0 <= i < |Kept(cols)| ==>
              f.requires(Kept(cols)[i]) && Tabulate(cols, f)[i] == f(Kept(cols)[i])
  {
    forall c | c in Kept(cols) ensures c in cols && IsKept(c) {
      KeptMembers(cols, c);
    }
    if cols != [] {
      var init := cols[..|cols| - 1];
      assert forall c :: c in init ==> c in cols;
      TabulateIsMapOfKept(init, f);
    }
  }

  /** Column independence for any analysis: the table of two column groups
      side by side is the table of each group, concatenated. */
  lemma {:induction false} TabulateAppend<R>(a: seq<Column>, b: seq<Column>, f: Column --> R)
    requires forall d :: d in a + b && IsKept(d) ==> f.requires(d)
    ensures forall d :: d in a && IsKept(d) ==> f.requires(d)
    ensures forall d :: d in b && IsKept(d) ==> f.requires(d)
    ensures Tabulate(a + b, f) == Tabulate(a, f) + Tabulate(b, f)
  {
    assert forall d :: d in a ==> d in a + b;
    assert forall d :: d in b ==> d in a + b;
    if b != [] {
      var init := b[..|b| - 1];
      assert a + b == (a + init) + [b[|b| - 1]];
      assert forall d :: d in a + init ==> d in a + b;
      TabulateAppend(a, init, f);
      TabulateSnoc(a + init, b[|b| - 1], f);
    } else {
      assert a + b == a;
    }
  }

  /** Dropping an excluded column from anywhere in the input leaves every
      table unchanged. */
  lemma {:induction false} DropExcluded<R>(a: seq<Column>, c: Column, b: seq<Column>, f: Column --> R)
    requires !IsKept(c)
    requires forall d :: d in a + b && IsKept(d) ==> f.requires(d)
    ensures forall d :: d in a + [c] + b && IsKept(d) ==> f.requires(d)
    ensures Tabulate(a + [c] + b, f) == Tabulate(a + b, f)
  {
    var ac := a + [c];
    assert forall d :: d in ac + b && IsKept(d) ==> f.requires(d) by {
      forall d | d in ac + b && IsKept(d) ensures f.requires(d) {
        assert d in a + b;
      }
    }
    assert forall d :: d in ac && IsKept(d) ==> f.requires(d) by {
      TabulateAppend(ac, b, f);
    }
    assert Tabulate(ac, f) == Tabulate(a, f) by {
      TabulateSnoc(a, c, f);
    }
    assert Tabulate(ac + b, f) == Tabulate(ac, f) + Tabulate(b, f) by {
      TabulateAppend(ac, b, f);
    }
    assert Tabulate(a + b, f) == Tabulate(a, f) + Tabulate(b, f) by {
      TabulateAppend(a, b, f);
    }
  }

  /** No two columns share a name. */
  predicate UniqueNames(cols: seq<Column>) {
    forall i, j :: 0 <= i < j < |cols| ==> cols[i].name != cols[j].name
  }

  /** Distinct input names stay distinct among the kept columns, so every
      analysis table has unique `Feature` keys. */
  lemma {:induction false} KeptUniqueNames(cols: seq<Column>)
    requires UniqueNames(cols)
    ensures UniqueNames(Kept(cols))
  {
    if cols != [] {
      var init := cols[..|cols| - 1];
      var last := cols[|cols| - 1];
      KeptUniqueNames(init);
      if IsKept(last) {
        forall d | d in Kept(init) ensures d.name != last.name {
          KeptMembers(init, d);
          var k :| 0 <= k < |init| && init[k] == d;
          assert cols[k] == d;
        }
        var ks := Kept(cols);
        forall i, j | 0 <= i < j < |ks| ensures ks[i].name != ks[j].name {
          if j == |ks| - 1 {
            assert ks[i] in Kept(init);
          } else {
            assert ks[i] == Kept(init)[i] && ks[j] == Kept(init)[j];
          }
        }
      }
    }
  }
}

=== FILE: correlations.dfy ===
/**
 * `GetCorrelations` (correlations.py): check the target's shape and length,
 * then build one correlation record per feature, or per (feature, target
 * column) pair, and dispatch on the name of the method. The coefficients and
 * p-values come from scipy and sklearn and are parameters of the model.
 */
module Correlations {
  import opened Wrappers

  /** One labelled column of a frame: `X1[col].values`. */
  datatype Series = Series(name: string, values: seq<real>)

  /** A DataFrame: its row count `shape[0]` and its columns in order. */
  datatype Frame = Frame(height: nat, columns: seq<Series>)

  /** The second argument `X2`: a DataFrame, or an array (or Series) of shape
      `[height] + rest`, given with its values in row-major order. */
  datatype Target =
    | FrameTarget(frame: Frame)
    | ArrayTarget(height: nat, rest: seq<nat>, values: seq<real>)
  {
    /** `X2.shape`. */
    function Shape(): (s: seq<nat>)
      ensures |s| >= 1 && s[0] == Height()
    {
      if FrameTarget? then [frame.height, |frame.columns|] else [height] + rest
    }

    /** `X2.shape[0]`. */
    function Height(): nat {
      if FrameTarget? then frame.height else height
    }

    /** `len(X2.shape) > 1 and X2.shape[1] != 1`: not a column vector. */
    predicate Wide() {
      |Shape()| > 1 && Shape()[1] != 1
    }

    /** The values an estimator receives when `X2` is passed whole. */
    function Flat(): seq<real> {
      if FrameTarget? then Concat(frame.columns) else values
    }
  }

  function Concat(cols: seq<Series>): seq<real> {
    if cols == [] then [] else Concat(cols[..|cols| - 1]) + cols[|cols| - 1].values
  }

  /** What scipy's `pointbiserialr`, `spearmanr` and `pearsonr` return. */
  datatype Coef = Coef(correlation: real, pvalue: real)

  /** A correlation estimator applied to two value vectors. */
  type Estimator = (seq<real>, seq<real>) -> Coef

  /** The estimators, standing for scipy and sklearn: sklearn's
      `mutual_info_classif` scores each feature column against the target
      on its own. */
  datatype Estimators = Estimators(
    pointBiserial: Estimator,
    spearman: Estimator,
    pearson: Estimator,
    mutualInfo: (seq<real>, seq<real>) -> real)

  /** The errors raised before any record is built. */
  datatype CorrError =
    | TargetIsFrame            // ValueError: X2 should not be pd.DataFrame
    | TargetNotOneDimensional  // ValueError: Expected a 1-D array X2
    | UnequalLength            // AssertionError: Unequal length arrays
    | InvalidCorrelation       // ValueError: Invalid string for correlation

  function Abs(x: real): (r: real)
    ensures r >= 0.0 && (r == x || r == -x)
  {
    if x < 0.0 then -x else x
  }

  // ---------------------------------------------------------------------
  // Point-biserial

  datatype BiserialRecord = BiserialRecord(feature: string, absCorr: real, corr: real, pvalue: real)

  const BiserialHeader: seq<string> := ["Feature", "Point Biserial Abs Corr", "Point Biserial Corr", "P-Value"]

  function BiserialOf(c: Series, y: seq<real>, est: Estimator): BiserialRecord {
    var out := est(c.values, y);
    BiserialRecord(c.name, Abs(out.correlation), out.correlation, out.pvalue)
  }

  /** The records of the `for col in X1.columns` loop. */
  function BiserialRecords(cols: seq<Series>, y: seq<real>, est: Estimator): (r: seq<BiserialRecord>)
    ensures |r| == |cols|
  {
    if cols == [] then []
    else BiserialRecords(cols[..|cols| - 1], y, est) + [BiserialOf(cols[|cols| - 1], y, est)]
  }

  /** `point_biserial_df`: the DataFrame test, then the shape test, then the
      length test, then one record per feature. */
  function PointBiserialSpec(x1: Frame, x2: Target, est: Estimator): Result<seq<BiserialRecord>, CorrError> {
    if x2.FrameTarget? then Failure(TargetIsFrame)
    else if x2.Wide() then Failure(TargetNotOneDimensional)
    else if x1.height != x2.Height() then Failure(UnequalLength)
    else Success(BiserialRecords(x1.columns, x2.Flat(), est))
  }

  /** One record per feature, in column order, carrying the feature's label,
      the estimator's coefficient and p-value, and the coefficient's
      absolute value. */
  lemma {:induction false} BiserialRecordsFacts(cols: seq<Series>, y: seq<real>, est: Estimator)
    ensures var r := BiserialRecords(cols, y, est);
      forall i :: 0 <= i < |cols| ==>
        r[i].feature == cols[i].name &&
        r[i].corr == est(cols[i].values, y).correlation &&
        r[i].pvalue == est(cols[i].values, y).pvalue &&
        r[i].absCorr == Abs(r[i].corr) && r[i].absCorr >= 0.0
  {
    if cols != [] {
      BiserialRecordsFacts(cols[..|cols| - 1], y, est);
    }
  }

  /** The checks fire in source order, and only a vector target of the
      features' length yields records. */
  lemma PointBiserialChecks(x1: Frame, x2: Target, est: Estimator)
    ensures x2.FrameTarget? ==> PointBiserialSpec(x1, x2, est) == Failure(TargetIsFrame)
    ensures x2.ArrayTarget? && x2.Wide() ==>
              PointBiserialSpec(x1, x2, est) == Failure(TargetNotOneDimensional)
    ensures x2.ArrayTarget? && !x2.Wide() && x1.height != x2.height ==>
              PointBiserialSpec(x1, x2, est) == Failure(UnequalLength)
    ensures PointBiserialSpec(x1, x2, est).Success? <==>
              x2.ArrayTarget? && !x2.Wide() && x1.height == x2.height
    ensures PointBiserialSpec(x1, x2, est).Success? ==>
              |PointBiserialSpec(x1, x2, est).value| == |x1.columns|
  {
  }

  /** The loop of `point_biserial_df`, after its checks. */
  method PointBiserial(x1: Frame, x2: Target, est: Estimator)
    returns (r: Result<seq<BiserialRecord>, CorrError>)
    ensures r == PointBiserialSpec(x1, x2, est)
  {
    if x2.FrameTarget? {
      return Failure(TargetIsFrame);
    }
    if x2.Wide() {
      return Failure(TargetNotOneDimensional);
    }
    if x1.height != x2.Height() {
      return Failure(UnequalLength);
    }
    var cols := x1.columns;
    var corr := [];
    for i := 0 to |cols|
      invariant corr == BiserialRecords(cols[..i], x2.Flat(), est)
    {
      assert cols[..i + 1][..i] == cols[..i];
      corr := corr + [BiserialOf(cols[i], x2.Flat(), est)];
    }
    assert cols[..|cols|] == cols;
    return Success(corr);
  }

  // ---------------------------------------------------------------------
  // Spearman and Pearson

  datatype PairRecord = PairRecord(feature1: string, feature2: string, absCorr: real, corr: real, pvalue: real)

  const SpearmanHeader: seq<string> := ["Feature 1", "Feature 2", "Spearman Abs Corr", "Spearman Corr", "P-Value"]
  const PearsonHeader: seq<string> := ["Feature 1", "Feature 2", "Pearson Corr Abs", "Pearson Corr", "P-Value"]

  /** The record for feature values `x` against the target called `name`. */
  function PairOf(feature: string, target: string, x: seq<real>, y: seq<real>, est: Estimator): PairRecord {
    var out := est(x, y);
    PairRecord(feature, target, Abs(out.correlation), out.correlation, out.pvalue)
  }

  /** The inner `for col_j in X2.columns` loop for one feature. */
  function PairsWith(a: Series, bs: seq<Series>, est: Estimator): (r: seq<PairRecord>)
    ensures |r| == |bs|
  {
    if bs == [] then []
    else
      var b := bs[|bs| - 1];
      PairsWith(a, bs[..|bs| - 1], est) + [PairOf(a.name, b.name, a.values, b.values, est)]
  }

  /** The `series_name` keyword's default: the `Feature 2` label of every
      record against a vector target when the caller does not pass one. */
  const DefaultSeriesName: string := "series"

  /** The `series_name` a builder sees: the keyword when given, its default
      otherwise. */
  function SeriesName(keyword: Option<string>): string {
    match keyword
    case None => DefaultSeriesName
    case Some(n) => n
  }

  /** The records one feature contributes: one per target column, or one
      named `seriesName` for a vector target. */
  function RecordsFor(a: Series, x2: Target, est: Estimator, seriesName: string): seq<PairRecord> {
    if x2.FrameTarget? then PairsWith(a, x2.frame.columns, est)
    else [PairOf(a.name, seriesName, a.values, x2.Flat(), est)]
  }

  /** The outer `for col_i in X1.columns` loop. */
  function PairRecords(cols: seq<Series>, x2: Target, est: Estimator, seriesName: string): seq<PairRecord> {
    if cols == [] then []
    else PairRecords(cols[..|cols| - 1], x2, est, seriesName) + RecordsFor(cols[|cols| - 1], x2, est, seriesName)
  }

  /** `spearman_corr_df` and `pearson_corr_df`: the length test, then the
      records. */
  function PairwiseSpec(x1: Frame, x2: Target, est: Estimator, seriesName: string)
    : Result<seq<PairRecord>, CorrError>
  {
    if x1.height != x2.Height() then Failure(UnequalLength)
    else Success(PairRecords(x1.columns, x2, est, seriesName))
  }

  /** Record `j` of one feature's block pairs it with target column `j`. */
  lemma {:induction false} PairsWithIndex(a: Series, bs: seq<Series>, est: Estimator)
    ensures forall j :: 0 <= j < |bs| ==>
      PairsWith(a, bs, est)[j] == PairOf(a.name, bs[j].name, a.values, bs[j].values, est)
  {
    if bs != [] {
      PairsWithIndex(a, bs[..|bs| - 1], est);
    }
  }

  /** Appending a block of `w` records to `m` full blocks: position
      `i * w + j` is in the old blocks for `i < m` and is `j` in the new one
      for `i == m`. */
  lemma BlockSnoc<T>(front: seq<T>, block: seq<T>, m: nat, w: nat, i: nat, j: nat)
    requires |front| == m * w && |block| == w && i <= m && j < w
    ensures i * w + j < |front + block|
    ensures i < m ==> i * w + j < |front| && (front + block)[i * w + j] == front[i * w + j]
    ensures i == m ==> i * w + j - |front| == j && (front + block)[i * w + j] == block[j]
  {
    assert (m + 1) * w == m * w + w;
    if i < m {
      assert (i + 1) * w <= m * w;
      assert i * w + w == (i + 1) * w;
    }
  }

  /** With a DataFrame target, `|X1 columns| · |X2 columns|` records. */
  lemma {:induction false} PairRecordsCount(cols: seq<Series>, x2: Target, est: Estimator, seriesName: string)
    requires x2.FrameTarget?
    ensures |PairRecords(cols, x2, est, seriesName)| == |cols| * |x2.frame.columns|
  {
    if cols != [] {
      var m := |cols| - 1;
      PairRecordsCount(cols[..m], x2, est, seriesName);
      assert (m + 1) * |x2.frame.columns| == m * |x2.frame.columns| + |x2.frame.columns|;
    }
  }

  /** With a DataFrame target, record `i * |X2 columns| + j` pairs X1's
      column `i` with X2's column `j`. */
  lemma {:induction false} PairRecordsAt(cols: seq<Series>, x2: Target, est: Estimator, seriesName: string,
                                         i: nat, j: nat)
    requires x2.FrameTarget? && i < |cols| && j < |x2.frame.columns|
    ensures var bs := x2.frame.columns; var r := PairRecords(cols, x2, est, seriesName);
      i * |bs| + j < |r| &&
      r[i * |bs| + j] == PairOf(cols[i].name, bs[j].name, cols[i].values, bs[j].values, est)
  {
    var bs := x2.frame.columns;
    var w := |bs|;
    var m := |cols| - 1;
    var init := cols[..m];
    var front := PairRecords(init, x2, est, seriesName);
    var block := PairsWith(cols[m], bs, est);
    assert PairRecords(cols, x2, est, seriesName) == front + block;
    PairRecordsCount(init, x2, est, seriesName);
    BlockSnoc(front, block, m, w, i, j);
    if i < m {
      PairRecordsAt(init, x2, est, seriesName, i, j);
      assert init[i] == cols[i];
    } else {
      PairsWithIndex(cols[m], bs, est);
    }
  }

  /** With a DataFrame target: |X1 columns| · |X2 columns| records, X1's
      columns in the outer loop and X2's in the inner loop, each with the
      estimator's result for that pair and its absolute value. */
  lemma PairRecordsCross(cols: seq<Series>, x2: Target, est: Estimator, seriesName: string)
    requires x2.FrameTarget?
    ensures var bs := x2.frame.columns; var r := PairRecords(cols, x2, est, seriesName);
      |r| == |cols| * |bs| &&
      forall i, j :: 0 <= i < |cols| && 0 <= j < |bs| ==>
        i * |bs| + j < |r| &&
        r[i * |bs| + j] == PairOf(cols[i].name, bs[j].name, cols[i].values, bs[j].values, est)
  {
    PairRecordsCount(cols, x2, est, seriesName);
    forall i, j | 0 <= i < |cols| && 0 <= j < |x2.frame.columns| {
      PairRecordsAt(cols, x2, est, seriesName, i, j);
    }
  }

  /** With a vector target: one record per feature, in column order, whose
      second feature is `seriesName`. */
  lemma {:induction false} PairRecordsVector(cols: seq<Series>, x2: Target, est: Estimator, seriesName: string)
    requires x2.ArrayTarget?
    ensures var r := PairRecords(cols, x2, est, seriesName);
      |r| == |cols| &&
      forall i :: 0 <= i < |cols| ==>
        r[i] == PairOf(cols[i].name, seriesName, cols[i].values, x2.values, est) &&
        r[i].absCorr == Abs(r[i].corr)
  {
    if cols != [] {
      PairRecordsVector(cols[..|cols| - 1], x2, est, seriesName);
    }
  }

  /** Unequal row counts fail before any record is built, whatever the
      target's kind. */
  lemma PairwiseLength(x1: Frame, x2: Target, est: Estimator, seriesName: string)
    ensures PairwiseSpec(x1, x2, est, seriesName).Failure? <==> x1.height != x2.Height()
    ensures PairwiseSpec(x1, x2, est, seriesName).Failure? ==>
              PairwiseSpec(x1, x2, est, seriesName).error == UnequalLength
  {
  }

  /** The nested loops shared by `spearman_corr_df` and `pearson_corr_df`. */
  method Pairwise(x1: Frame, x2: Target, est: Estimator, seriesName: string)
    returns (r: Result<seq<PairRecord>, CorrError>)
    ensures r == PairwiseSpec(x1, x2, est, seriesName)
  {
    if x1.height != x2.Height() {
      return Failure(UnequalLength);
    }
    var cols := x1.columns;
    var corr := [];
    for i := 0 to |cols|
      invariant corr == PairRecords(cols[..i], x2, est, seriesName)
    {
      assert cols[..i + 1][..i] == cols[..i];
      var a := cols[i];
      if x2.FrameTarget? {
        var bs := x2.frame.columns;
        ghost var start := corr;
        for j := 0 to |bs|
          invariant corr == start + PairsWith(a, bs[..j], est)
        {
          assert bs[..j + 1][..j] == bs[..j];
          corr := corr + [PairOf(a.name, bs[j].name, a.values, bs[j].values, est)];
        }
        assert bs[..|bs|] == bs;
      } else {
        corr := corr + [PairOf(a.name, seriesName, a.values, x2.Flat(), est)];
      }
    }
    assert cols[..|cols|] == cols;
    return Success(corr);
  }

  // ---------------------------------------------------------------------
  // Mutual information

  datatype MiRecord = MiRecord(feature: string, mi: real)

  const MutualInfoHeader: seq<string> := ["Feature", "MI Values"]

  /** `pd.DataFrame({'Feature': data_cols, 'MI Values': mutual_info})`. */
  function MiRecords(cols: seq<Series>, y: seq<real>, mi: (seq<real>, seq<real>) -> real): seq<MiRecord> {
    seq(|cols|, i requires 0 <= i < |cols| => MiRecord(cols[i].name, mi(cols[i].values, y)))
  }

  predicate SortedDescending(rs: seq<MiRecord>) {
    forall i, j :: 0 <= i < j < |rs| ==> rs[i].mi >= rs[j].mi
  }

  /** Place `x` in a descending list after every record with a larger or
      equal score. */
  function InsertByMi(x: MiRecord, rs: seq<MiRecord>): (r: seq<MiRecord>)
    requires SortedDescending(rs)
    ensures SortedDescending(r) && multiset(r) == multiset(rs) + multiset{x} && |r| == |rs| + 1
  {
    if rs == [] || rs[0].mi < x.mi then
      assert SortedDescending([x] + rs) by { PrependUpper(x, rs); }
      [x] + rs
    else
      var t := InsertByMi(x, rs[1..]);
      assert multiset([rs[0]] + t) == multiset(rs) + multiset{x} by {
        assert rs == [rs[0]] + rs[1..];
      }
      assert SortedDescending([rs[0]] + t) by {
        UpperScore(rs[0].mi, t, rs[1..], x);
        PrependUpper(rs[0], t);
      }
      [rs[0]] + t
  }

  /** An upper bound of the scores in `u` and of `x` bounds every score of a
      sequence holding exactly `u` and `x`. */
  lemma UpperScore(b: real, t: seq<MiRecord>, u: seq<MiRecord>, x: MiRecord)
    requires multiset(t) == multiset(u) + multiset{x}
    requires x.mi <= b && forall i :: 0 <= i < |u| ==> u[i].mi <= b
    ensures forall i :: 0 <= i < |t| ==> t[i].mi <= b
  {
    forall i | 0 <= i < |t| ensures t[i].mi <= b {
      assert t[i] in multiset(t);
      if t[i] != x {
        assert t[i] in multiset(u);
        var k :| 0 <= k < |u| && u[k] == t[i];
      }
    }
  }

  /** A score at least every score of a descending list can head it. */
  lemma PrependUpper(h: MiRecord, t: seq<MiRecord>)
    requires SortedDescending(t) && forall i :: 0 <= i < |t| ==> t[i].mi <= h.mi
    ensures SortedDescending([h] + t)
  {
    var s := [h] + t;
    forall i, j | 0 <= i < j < |s| ensures s[i].mi >= s[j].mi {
      assert s[j] == t[j - 1];
      if i > 0 {
        assert s[i] == t[i - 1];
      }
    }
  }

  /** `sort_values(by=['MI Values'], ascending=False)`. */
  function SortByMi(rs: seq<MiRecord>): (r: seq<MiRecord>)
    ensures SortedDescending(r) && multiset(r) == multiset(rs) && |r| == |rs|
  {
    if rs == [] then []
    else
      assert rs == rs[..|rs| - 1] + [rs[|rs| - 1]];
      InsertByMi(rs[|rs| - 1], SortByMi(rs[..|rs| - 1]))
  }

  /** `mutual_info_gain_df`: the length test comes before the shape test. */
  function MutualInfoSpec(x1: Frame, x2: Target, mi: (seq<real>, seq<real>) -> real)
    : Result<seq<MiRecord>, CorrError>
  {
    if x1.height != x2.Height() then Failure(UnequalLength)
    else if x2.Wide() then Failure(TargetNotOneDimensional)
    else Success(SortByMi(MiRecords(x1.columns, x2.Flat(), mi)))
  }

  /** The output lists every feature once with its score, sorted by score,
      highest first. */
  lemma MutualInfoFacts(x1: Frame, x2: Target, mi: (seq<real>, seq<real>) -> real)
    requires MutualInfoSpec(x1, x2, mi).Success?
    ensures var r := MutualInfoSpec(x1, x2, mi).value;
      |r| == |x1.columns| && SortedDescending(r) &&
      multiset(r) == multiset(MiRecords(x1.columns, x2.Flat(), mi)) &&
      (forall i :: 0 <= i < |x1.columns| ==>
         MiRecord(x1.columns[i].name, mi(x1.columns[i].values, x2.Flat())) in r) &&
      (forall k :: 0 <= k < |r| ==>
         exists i :: 0 <= i < |x1.columns| &&
           r[k] == MiRecord(x1.columns[i].name, mi(x1.columns[i].values, x2.Flat())))
  {
    var rs := MiRecords(x1.columns, x2.Flat(), mi);
    var r := MutualInfoSpec(x1, x2, mi).value;
    forall i | 0 <= i < |x1.columns|
      ensures MiRecord(x1.columns[i].name, mi(x1.columns[i].values, x2.Flat())) in r
    {
      assert rs[i] in multiset(rs);
    }
    forall k | 0 <= k < |r|
      ensures exists i :: 0 <= i < |x1.columns| &&
                r[k] == MiRecord(x1.columns[i].name, mi(x1.columns[i].values, x2.Flat()))
    {
      assert r[k] in multiset(r);
      var i :| 0 <= i < |rs| && rs[i] == r[k];
    }
  }

  /** `mutual_info_gain_df` fails exactly when the lengths differ or the
      target is not one-dimensional, and the length error comes first. */
  lemma MutualInfoOutcome(x1: Frame, x2: Target, mi: (seq<real>, seq<real>) -> real)
    ensures MutualInfoSpec(x1, x2, mi).Success? <==> x1.height == x2.Height() && !x2.Wide()
    ensures x1.height != x2.Height() ==> MutualInfoSpec(x1, x2, mi) == Failure(UnequalLength)
    ensures x1.height == x2.Height() && x2.Wide() ==>
      MutualInfoSpec(x1, x2, mi) == Failure(TargetNotOneDimensional)
  {
  }

  /** A target of the wrong length and the wrong shape fails on its length
      here, but on its shape in `point_biserial_df`: a corollary of
      `MutualInfoOutcome` and `PointBiserialChecks`. */
  lemma CheckOrderDiffers(x1: Frame, x2: Target, est: Estimators)
    requires x2.ArrayTarget? && x2.Wide() && x1.height != x2.height
    ensures MutualInfoSpec(x1, x2, est.mutualInfo) == Failure(UnequalLength)
    ensures PointBiserialSpec(x1, x2, est.pointBiserial) == Failure(TargetNotOneDimensional)
  {
    MutualInfoOutcome(x1, x2, est.mutualInfo);
    PointBiserialChecks(x1, x2, est.pointBiserial);
  }

  // ---------------------------------------------------------------------
  // Dispatch

  datatype Method = PointBi | Spearman | Pearson | MutualInfoGain

  function MethodName(m: Method): string {
    match m
    case PointBi => "point_bi"
    case Spearman => "spearman"
    case Pearson => "pearson"
    case MutualInfoGain => "mutual_info_gain"
  }

  /** The if/elif chain of `run_corelation`. */
  function ParseMethod(s: string): Option<Method> {
    if s == "point_bi" then Some(PointBi)
    else if s == "spearman" then Some(Spearman)
    else if s == "pearson" then Some(Pearson)
    else if s == "mutual_info_gain" then Some(MutualInfoGain)
    else None
  }

  /** Exactly the four method names are accepted, each selecting its own
      method. */
  lemma ParseMethodExact(s: string, m: Method)
    ensures ParseMethod(s) == Some(m) <==> s == MethodName(m)
    ensures ParseMethod(s).None? <==> s !in {"point_bi", "spearman", "pearson", "mutual_info_gain"}
  {
  }

  /** The DataFrame `run_corelation` returns. */
  datatype CorrTable =
    | BiserialTable(biserial: seq<BiserialRecord>)
    | SpearmanTable(spearman: seq<PairRecord>)
    | PearsonTable(pearson: seq<PairRecord>)
    | MutualInfoTable(mutualInfo: seq<MiRecord>)
  {
    function Header(): seq<string> {
      match this
      case BiserialTable(_) => BiserialHeader
      case SpearmanTable(_) => SpearmanHeader
      case PearsonTable(_) => PearsonHeader
      case MutualInfoTable(_) => MutualInfoHeader
    }
  }

  function Wrap<T>(r: Result<T, CorrError>, f: T -> CorrTable): Result<CorrTable, CorrError> {
    match r
    case Success(v) => Success(f(v))
    case Failure(e) => Failure(e)
  }

  /** `run_corelation`; `seriesName` is the `series_name` keyword, if the
      caller passes one, handed on to the Spearman and Pearson builders
      only. */
  function CorrelationSpec(x1: Frame, x2: Target, correlation: string, seriesName: Option<string>, est: Estimators)
    : Result<CorrTable, CorrError>
  {
    match ParseMethod(correlation)
    case None => Failure(InvalidCorrelation)
    case Some(PointBi) => Wrap(PointBiserialSpec(x1, x2, est.pointBiserial), rs => BiserialTable(rs))
    case Some(Spearman) => Wrap(PairwiseSpec(x1, x2, est.spearman, SeriesName(seriesName)), rs => SpearmanTable(rs))
    case Some(Pearson) => Wrap(PairwiseSpec(x1, x2, est.pearson, SeriesName(seriesName)), rs => PearsonTable(rs))
    case Some(MutualInfoGain) => Wrap(MutualInfoSpec(x1, x2, est.mutualInfo), rs => MutualInfoTable(rs))
  }

  /** An unknown method name raises before the data is looked at; a known
      one yields the table of that method or that method's error. */
  lemma CorrelationDispatch(x1: Frame, x2: Target, correlation: string, seriesName: Option<string>, est: Estimators)
    ensures var r := CorrelationSpec(x1, x2, correlation, seriesName, est);
      (r == Failure(InvalidCorrelation) <==> ParseMethod(correlation).None?) &&
      (ParseMethod(correlation) == Some(Spearman) && r.Success? ==>
         r.value.SpearmanTable? && r.value.Header() == SpearmanHeader &&
         Success(r.value.spearman) == PairwiseSpec(x1, x2, est.spearman, SeriesName(seriesName))) &&
      (ParseMethod(correlation) == Some(Pearson) && r.Success? ==>
         r.value.PearsonTable? && r.value.Header() == PearsonHeader &&
         Success(r.value.pearson) == PairwiseSpec(x1, x2, est.pearson, SeriesName(seriesName))) &&
      (ParseMethod(correlation) == Some(PointBi) && r.Success? ==>
         r.value.BiserialTable? && r.value.Header() == BiserialHeader &&
         Success(r.value.biserial) == PointBiserialSpec(x1, x2, est.pointBiserial)) &&
      (ParseMethod(correlation) == Some(MutualInfoGain) && r.Success? ==>
         r.value.MutualInfoTable? && r.value.Header() == MutualInfoHeader &&
         Success(r.value.mutualInfo) == MutualInfoSpec(x1, x2, est.mutualInfo))
    ensures var r := CorrelationSpec(x1, x2, correlation, seriesName, est);
      (ParseMethod(correlation) == Some(PointBi) && r.Failure? ==>
         PointBiserialSpec(x1, x2, est.pointBiserial) == Failure(r.error)) &&
      (ParseMethod(correlation) == Some(Spearman) && r.Failure? ==>
         PairwiseSpec(x1, x2, est.spearman, SeriesName(seriesName)) == Failure(r.error)) &&
      (ParseMethod(correlation) == Some(Pearson) && r.Failure? ==>
         PairwiseSpec(x1, x2, est.pearson, SeriesName(seriesName)) == Failure(r.error)) &&
      (ParseMethod(correlation) == Some(MutualInfoGain) && r.Failure? ==>
         MutualInfoSpec(x1, x2, est.mutualInfo) == Failure(r.error))
  {
  }

  /** Called without `series_name` on a vector target, Spearman and Pearson
      label the target `series` in every record, one record per feature. */
  lemma DefaultSeriesLabel(x1: Frame, x2: Target, correlation: string, est: Estimators)
    requires x2.ArrayTarget?
    requires ParseMethod(correlation) == Some(Spearman) || ParseMethod(correlation) == Some(Pearson)
    requires CorrelationSpec(x1, x2, correlation, None, est).Success?
    ensures var t := CorrelationSpec(x1, x2, correlation, None, est).value;
      (t.SpearmanTable? || t.PearsonTable?) &&
      var rs := if t.SpearmanTable? then t.spearman else t.pearson;
      |rs| == |x1.columns| &&
      forall i :: 0 <= i < |rs| ==> rs[i].feature1 == x1.columns[i].name && rs[i].feature2 == "series"
  {
    if ParseMethod(correlation) == Some(Spearman) {
      PairRecordsVector(x1.columns, x2, est.spearman, DefaultSeriesName);
    } else {
      PairRecordsVector(x1.columns, x2, est.pearson, DefaultSeriesName);
    }
  }

  /** `run_corelation`, calling the record builders. */
  method RunCorrelation(x1: Frame, x2: Target, correlation: string, seriesName: Option<string>, est: Estimators)
    returns (r: Result<CorrTable, CorrError>)
    ensures r == CorrelationSpec(x1, x2, correlation, seriesName, est)
  {
    match ParseMethod(correlation) {
      case None =>
        r := Failure(InvalidCorrelation);
      case Some(PointBi) =>
        var pb := PointBiserial(x1, x2, est.pointBiserial);
        r := Wrap(pb, rs => BiserialTable(rs));
      case Some(Spearman) =>
        var sp := Pairwise(x1, x2, est.spearman, SeriesName(seriesName));
        r := Wrap(sp, rs => SpearmanTable(rs));
      case Some(Pearson) =>
        var pe := Pairwise(x1, x2, est.pearson, SeriesName(seriesName));
        r := Wrap(pe, rs => PearsonTable(rs));
      case Some(MutualInfoGain) =>
        r := Wrap(MutualInfoSpec(x1, x2, est.mutualInfo), rs => MutualInfoTable(rs));
    }
  }
}

=== FILE: descriptive.dfy ===
/**
 * The per-column analyses of descriptive_analysis.py. Each one walks the
 * columns in order, skips the excluded ones (see `Columns.IsKept`) and
 * appends one row per kept column; non-numeric kept columns get a row whose
 * statistics are undefined.
 */
module DescriptiveAnalysis {
  import opened Wrappers
  import opened Columns
  import opened Stats
  import opened Tables

  /** Exceptions the analyses and their caller can raise. */
  datatype Error =
    | KeyError(key: string)         // a label that is not a column of the frame
    | TypeError(feature: string)    // ordering comparison between text and a number

  // ---------------------------------------------------------------------
  // feature_description

  datatype ProfileRow = ProfileRow(
    feature: string, dataType: Kind, initialRows: nat, nonNullRows: nat,
    nullPercent: real, uniqueValues: nat)

  /** `isna().sum() / shape[0] * 100`, before rounding. */
  function NullShare(c: Column): real
    requires c.Rows() > 0
  {
    c.Missing() as real / c.Rows() as real * 100.0
  }

  function ProfileOf(c: Column): ProfileRow
    requires IsKept(c)
  {
    KeptCounts(c);
    ProfileRow(c.name, c.DataType(), c.Rows(), c.NonNull(), Round2(NullShare(c)), c.Unique())
  }

  /** The profile row of a kept column: its length, its non-missing count (no
      larger), its distinct count (at least two, no larger than the
      non-missing count) and its null percentage rounded to two decimals,
      below 100 before rounding and within [0, 100] after. */
  lemma ProfileFacts(c: Column)
    requires IsKept(c)
    ensures c.Rows() > 0
    ensures var r := ProfileOf(c);
      r.feature == c.name && r.dataType == c.DataType() &&
      r.initialRows == c.Rows() && r.nonNullRows == c.NonNull() &&
      r.nonNullRows <= r.initialRows &&
      r.uniqueValues == c.Unique() && r.nullPercent == Round2(NullShare(c)) &&
      2 <= r.uniqueValues <= r.nonNullRows &&
      0.0 <= NullShare(c) < 100.0 &&
      0.0 <= r.nullPercent <= 100.0 &&
      NullShare(c) - 0.005 <= r.nullPercent <= NullShare(c) + 0.005
  {
    KeptCounts(c);
    ShareBelow(c.Missing(), c.Rows());
    Round2Range(NullShare(c));
  }

  lemma ShareBelow(part: nat, whole: nat)
    requires part < whole
    ensures 0.0 <= part as real / whole as real * 100.0 < 100.0
  {
    var q := part as real / whole as real;
    assert q * whole as real == part as real;
    assert q < 1.0;
  }

  // ---------------------------------------------------------------------
  // five_point_summary

  datatype FivePoint = FivePoint(mean: real, median: int, mode: real, minimum: real, maximum: real)

  datatype SummaryRow = SummaryRow(feature: string, stats: Option<FivePoint>)

  function SummaryOf(c: Column): SummaryRow
    requires IsKept(c)
  {
    match c
    case NumericColumn(name, xs) =>
      var v := Dropna(xs);
      SummaryRow(name, Some(FivePoint(
        Round2(Mean(v)), RoundHalfEven(Median(v)), Mode(v), Min(v), Max(v))))
    case OtherColumn(name, _) =>
      SummaryRow(name, None)
  }

  /** Every present value equal to `x` leaves at most one distinct value. */
  lemma SingleValue(xs: seq<Option<real>>, x: real)
    requires forall i :: 0 <= i < |Dropna(xs)| ==> Dropna(xs)[i] == x
    ensures |Distinct(xs)| <= 1
  {
    assert Distinct(xs) <= {x};
    assert Distinct(xs) == {} || Distinct(xs) == {x};
  }

  /** A column with at least two distinct values holds two different
      present values. */
  lemma TwoDistinct(xs: seq<Option<real>>) returns (x: real, y: real)
    requires |Distinct(xs)| >= 2
    ensures x in Dropna(xs) && y in Dropna(xs) && x != y
  {
    var v := Dropna(xs);
    ElementsBound(v);
    x := v[0];
    if forall i :: 0 <= i < |v| ==> v[i] == x {
      SingleValue(xs, x);
      assert false;
    }
    var i :| 0 <= i < |v| && v[i] != x;
    y := v[i];
  }

  /** The five-point summary of a kept numeric column: minimum strictly
      below maximum, the mode a most frequent value (the smallest on ties)
      between them, the mean rounded to two decimals and the median rounded
      half to even, each within rounding distance of [minimum, maximum]. A non-numeric kept column gets undefined fields. */
  lemma SummaryFacts(c: Column)
    requires IsKept(c)
    ensures SummaryOf(c).feature == c.name
    ensures SummaryOf(c).stats.None? <==> c.OtherColumn?
    ensures c.NumericColumn? ==>
      var v := Dropna(c.nums);
      var s := SummaryOf(c).stats.value;
      (s.minimum in v && forall x :: x in v ==> s.minimum <= x) &&
      (s.maximum in v && forall x :: x in v ==> x <= s.maximum) &&
      s.minimum < s.maximum &&
      s.minimum <= s.mode <= s.maximum &&
      (forall x :: x in v ==> Count(v, x) <= Count(v, s.mode)) &&
      (forall x :: x in v && Count(v, x) == Count(v, s.mode) ==> s.mode <= x) &&
      s.mean == Round2(Mean(v)) && s.median == RoundHalfEven(Median(v)) &&
      s.minimum - 0.005 <= s.mean <= s.maximum + 0.005 &&
      s.minimum - 0.5 <= s.median as real <= s.maximum + 0.5
  {
    if c.NumericColumn? {
      var v := Dropna(c.nums);
      var x, y := TwoDistinct(c.nums);
      MinBelowMax(v, x, y);
      MeanBounds(v);
      MedianBounds(v);
    }
  }

  // ---------------------------------------------------------------------
  // deviation_analysis

  /** Standard deviation, skewness and kurtosis, as NumPy/SciPy compute them. */
  datatype Moments = Moments(std: real, skewness: real, kurtosis: real)

  datatype DeviationRow = DeviationRow(feature: string, moments: Option<Moments>)

  /** The row builder of deviation_analysis for the given moment estimator. */
  function DeviationFor(moments: seq<real> -> Moments): Column -> DeviationRow {
    (c: Column) => DeviationRow(c.name, if c.NumericColumn? then Some(moments(Dropna(c.nums))) else None)
  }

  // ---------------------------------------------------------------------
  // Counting rows outside an interval (outlier_analysis, limits_analysis)

  /** `~((x >= lo) & (x <= hi))` for one cell: every comparison with a
      missing value is false, so a missing cell counts as outside. */
  predicate Outside(cell: Option<real>, lo: real, hi: real) {
    match cell
    case None => true
    case Some(x) => !(lo <= x && x <= hi)
  }

  /** Number of rows of `data[~((col >= lo) & (col <= hi))]`. */
  function OutsideCount(cells: seq<Option<real>>, lo: real, hi: real): (n: nat)
    ensures n <= |cells|
  {
    if cells == [] then 0
    else
      OutsideCount(cells[..|cells| - 1], lo, hi) +
      (if Outside(cells[|cells| - 1], lo, hi) then 1 else 0)
  }

  /** Number of present values strictly outside [lo, hi]. */
  function OutsideValues(v: seq<real>, lo: real, hi: real): nat {
    if v == [] then 0
    else
      OutsideValues(v[..|v| - 1], lo, hi) +
      (if v[|v| - 1] < lo || v[|v| - 1] > hi then 1 else 0)
  }

  /** The count is every missing cell plus every present value strictly
      outside [lo, hi]. */
  lemma {:induction false} OutsideCountSplit(cells: seq<Option<real>>, lo: real, hi: real)
    ensures OutsideCount(cells, lo, hi) ==
            (|cells| - |Dropna(cells)|) + OutsideValues(Dropna(cells), lo, hi)
  {
    if cells != [] {
      var init := cells[..|cells| - 1];
      OutsideCountSplit(init, lo, hi);
      match cells[|cells| - 1]
      case None =>
        assert Dropna(cells) == Dropna(init);
      case Some(x) =>
        var d := Dropna(cells);
        assert d == Dropna(init) + [x];
        assert d[..|d| - 1] == Dropna(init);
    }
  }

  /** Narrowing the interval can only add rows to the count. */
  lemma {:induction false} OutsideCountMonotone(
    cells: seq<Option<real>>, lo1: real, hi1: real, lo2: real, hi2: real)
    requires lo1 <= lo2 && hi2 <= hi1
    ensures OutsideCount(cells, lo1, hi1) <= OutsideCount(cells, lo2, hi2)
  {
    if cells != [] {
      OutsideCountMonotone(cells[..|cells| - 1], lo1, hi1, lo2, hi2);
    }
  }

  /** The counting loop behind both outlier counts. */
  method CountOutside(cells: seq<Option<real>>, lo: real, hi: real) returns (n: nat)
    ensures n == OutsideCount(cells, lo, hi)
  {
    n := 0;
    for i := 0 to |cells|
      invariant n == OutsideCount(cells[..i], lo, hi)
    {
      assert cells[..i + 1][..i] == cells[..i];
      if Outside(cells[i], lo, hi) {
        n := n + 1;
      }
    }
    assert cells[..|cells|] == cells;
  }

  // ---------------------------------------------------------------------
  // outlier_analysis

  datatype IqrStats = IqrStats(
    q25: real, q75: real, q99: real, iqr: real, upper: real, lower: real, outliers: nat)

  datatype OutlierRow = OutlierRow(feature: string, stats: Option<IqrStats>)

  /** The IQR, the fences 1.5·IQR beyond the quartiles and the count of rows
      outside them, given the quartiles. */
  function FencesFrom(cells: seq<Option<real>>, q25: real, q75: real, q99: real): IqrStats {
    var iqr := q75 - q25;
    var lower, upper := q25 - 1.5 * iqr, q75 + 1.5 * iqr;
    IqrStats(q25, q75, q99, iqr, upper, lower, OutsideCount(cells, lower, upper))
  }

  /** Quartile statistics of a numeric column whose present values are `v`. */
  function IqrStatsOf(cells: seq<Option<real>>, v: seq<real>): IqrStats
    requires |v| > 0
  {
    var s := Sort(v);
    FencesFrom(cells, Percentile(s, 25.0), Percentile(s, 75.0), Percentile(s, 99.0))
  }

  function OutlierOf(c: Column): OutlierRow
    requires IsKept(c)
  {
    match c
    case NumericColumn(name, xs) => OutlierRow(name, Some(IqrStatsOf(xs, Dropna(xs))))
    case OtherColumn(name, _) => OutlierRow(name, None)
  }

  /** Quartiles of present values `v` lie within [min, max] and in order, and
      the fences sit 1.5·IQR outside them. */
  lemma IqrFacts(cells: seq<Option<real>>, v: seq<real>)
    requires |v| > 0
    ensures var s := IqrStatsOf(cells, v);
      Min(v) <= s.q25 <= s.q75 <= s.q99 <= Max(v) &&
      s.iqr == s.q75 - s.q25 && s.iqr >= 0.0 &&
      s.lower == s.q25 - 1.5 * s.iqr && s.upper == s.q75 + 1.5 * s.iqr &&
      s.upper - s.lower == 4.0 * s.iqr &&
      s.outliers == OutsideCount(cells, s.lower, s.upper)
  {
    var t := Sort(v);
    var q25, q75, q99 := Percentile(t, 25.0), Percentile(t, 75.0), Percentile(t, 99.0);
    QuartilesOrdered(v);
    FencesFacts(cells, q25, q75, q99);
  }

  /** Fences built from ordered quartiles: the IQR is non-negative, the lower
      fence is below q25, the upper above q75, and they are 4·IQR apart. */
  lemma FencesFacts(cells: seq<Option<real>>, q25: real, q75: real, q99: real)
    requires q25 <= q75
    ensures var s := FencesFrom(cells, q25, q75, q99);
      s.q25 == q25 && s.q75 == q75 && s.q99 == q99 &&
      s.iqr == q75 - q25 && s.iqr >= 0.0 &&
      s.lower == q25 - 1.5 * s.iqr && s.upper == q75 + 1.5 * s.iqr &&
      s.lower <= q25 && q75 <= s.upper &&
      s.upper - s.lower == 4.0 * s.iqr &&
      s.outliers == OutsideCount(cells, s.lower, s.upper)
  {
  }

  /** The quantile row of a kept numeric column: min ≤ q25 ≤ q75 ≤ q99 ≤ max,
      a non-negative IQR, fences at 1.5·IQR (so LL ≤ q25 and UL − LL = 4·IQR),
      and a count of every missing row plus every value outside the fences. */
  lemma OutlierFacts(c: Column)
    requires IsKept(c)
    ensures OutlierOf(c).feature == c.name
    ensures OutlierOf(c).stats.None? <==> c.OtherColumn?
    ensures c.NumericColumn? ==>
      var v := Dropna(c.nums);
      var s := OutlierOf(c).stats.value;
      Min(v) <= s.q25 <= s.q75 <= s.q99 <= Max(v) &&
      s.iqr == s.q75 - s.q25 && s.iqr >= 0.0 &&
      s.lower == s.q25 - 1.5 * s.iqr && s.upper == s.q75 + 1.5 * s.iqr &&
      s.lower <= s.q25 && s.q75 <= s.upper &&
      s.upper - s.lower == 4.0 * s.iqr &&
      s.outliers <= c.Rows() &&
      s.outliers == c.Missing() + OutsideValues(v, s.lower, s.upper)
  {
    if c.NumericColumn? {
      KeptCounts(c);
      var v := Dropna(c.nums);
      IqrFacts(c.nums, v);
      var st := IqrStatsOf(c.nums, v);
      OutsideCountSplit(c.nums, st.lower, st.upper);
    }
  }

  /** Lowering the 1.5 multiplier to any `k` in [0, 1.5] narrows the fences
      around ordered quartiles, so the outlier count can only grow. */
  lemma NarrowerFencesMoreOutliers(cells: seq<Option<real>>, q25: real, q75: real, q99: real, k: real)
    requires q25 <= q75 && 0.0 <= k <= 1.5
    ensures var s := FencesFrom(cells, q25, q75, q99);
      s.outliers <= OutsideCount(cells, q25 - k * s.iqr, q75 + k * s.iqr)
  {
    var iqr := q75 - q25;
    MulMonotone(k, 1.5, iqr);
    OutsideCountMonotone(cells, q25 - 1.5 * iqr, q75 + 1.5 * iqr, q25 - k * iqr, q75 + k * iqr);
  }

  // ---------------------------------------------------------------------
  // limits_analysis

  /** `{'lower_lim': ..., 'upper_lim': ...}` for one feature. */
  datatype Bounds = Bounds(lowerLim: real, upperLim: real)

  datatype LimitStats = LimitStats(upperActual: real, lowerActual: real, outliers: nat)

  datatype LimitsRow = LimitsRow(feature: string, actual: Option<LimitStats>)

  /** The comparison with the bounds can be made: pandas raises TypeError
      when it orders text cells against a number. */
  predicate Comparable(limits: map<string, Bounds>, c: Column) {
    c.NumericColumn? || c.name !in limits
  }

  function LimitsRowOf(limits: map<string, Bounds>, c: Column): LimitsRow
    requires Comparable(limits, c)
  {
    if c.name in limits then
      var b := limits[c.name];
      LimitsRow(c.name, Some(LimitStats(b.upperLim, b.lowerLim,
                                        OutsideCount(c.nums, b.lowerLim, b.upperLim))))
    else LimitsRow(c.name, None)
  }

  /** The table limits_analysis returns, or the error it raises at the first
      kept text column that has bounds. */
  function LimitsSpec(cols: seq<Column>, limits: map<string, Bounds>): Result<seq<LimitsRow>, Error> {
    if cols == [] then Success([])
    else
      match LimitsSpec(cols[..|cols| - 1], limits)
      case Failure(e) => Failure(e)
      case Success(rows) =>
        var c := cols[|cols| - 1];
        if !IsKept(c) then Success(rows)
        else if !Comparable(limits, c) then Failure(TypeError(c.name))
        else Success(rows + [LimitsRowOf(limits, c)])
  }

  /** A limits row copies the bounds and counts rows outside them (missing
      rows included) for a feature with bounds; a feature without bounds gets
      undefined fields, never a zero count. */
  lemma LimitsRowFacts(limits: map<string, Bounds>, c: Column)
    requires Comparable(limits, c)
    ensures LimitsRowOf(limits, c).feature == c.name
    ensures LimitsRowOf(limits, c).actual.None? <==> c.name !in limits
    ensures c.name in limits ==>
      var a := LimitsRowOf(limits, c).actual.value;
      a.upperActual == limits[c.name].upperLim &&
      a.lowerActual == limits[c.name].lowerLim &&
      a.outliers <= c.Rows() &&
      a.outliers == c.Missing() +
                    OutsideValues(Dropna(c.nums), a.lowerActual, a.upperActual)
  {
    if c.name in limits {
      var b := limits[c.name];
      OutsideCountSplit(c.nums, b.lowerLim, b.upperLim);
    }
  }

  /** limits_analysis succeeds exactly when no kept text column has bounds;
      then it has one row per kept column, in order; otherwise it fails on
      the first kept text column with bounds. */
  lemma {:induction false} LimitsSpecCharacterised(cols: seq<Column>, limits: map<string, Bounds>)
    ensures LimitsSpec(cols, limits).Success? <==>
            forall k :: 0 <= k < |Kept(cols)| ==> Comparable(limits, Kept(cols)[k])
    ensures LimitsSpec(cols, limits).Success? ==>
            var rows := LimitsSpec(cols, limits).value;
            |rows| == |Kept(cols)| &&
            forall k :: 0 <= k < |rows| ==>
              Comparable(limits, Kept(cols)[k]) && rows[k] == LimitsRowOf(limits, Kept(cols)[k])
    ensures LimitsSpec(cols, limits).Failure? ==>
            exists k :: 0 <= k < |Kept(cols)| && !Comparable(limits, Kept(cols)[k]) &&
              (forall j :: 0 <= j < k ==> Comparable(limits, Kept(cols)[j])) &&
              LimitsSpec(cols, limits).error == TypeError(Kept(cols)[k].name)
  {
    if cols != [] {
      var init := cols[..|cols| - 1];
      var c := cols[|cols| - 1];
      LimitsSpecCharacterised(init, limits);
      assert Kept(cols) == Kept(init) + (if IsKept(c) then [c] else []);
      if LimitsSpec(init, limits).Failure? {
        var k :| 0 <= k < |Kept(init)| && !Comparable(limits, Kept(init)[k]) &&
                 (forall j :: 0 <= j < k ==> Comparable(limits, Kept(init)[j])) &&
                 LimitsSpec(init, limits).error == TypeError(Kept(init)[k].name);
        assert Kept(cols)[k] == Kept(init)[k];
        assert forall j :: 0 <= j < k ==> Kept(cols)[j] == Kept(init)[j];
      } else if IsKept(c) && !Comparable(limits, c) {
        var k := |Kept(init)|;
        assert Kept(cols)[k] == c;
        assert forall j :: 0 <= j < k ==> Kept(cols)[j] == Kept(init)[j];
      }
    }
  }

  /** Ages 18, 25, 60, 45 and one missing value, against bounds 18 to 50:
      20% missing, four distinct values, and two rows outside the bounds,
      the missing one among them. */
  lemma AgeExample()
    ensures var c := NumericColumn("Age", [Some(18.0), Some(25.0), Some(60.0), Some(45.0), None]);
      IsKept(c) &&
      ProfileOf(c).nullPercent == 20.0 && ProfileOf(c).uniqueValues == 4 &&
      LimitsSpec([c], map["Age" := Bounds(18.0, 50.0)]) ==
        Success([LimitsRow("Age", Some(LimitStats(50.0, 18.0, 2)))])
  {
    var xs := [Some(18.0), Some(25.0), Some(60.0), Some(45.0), None];
    var c := NumericColumn("Age", xs);
    var s1 := [Some(18.0)];
    var s2 := [Some(18.0), Some(25.0)];
    var s3 := [Some(18.0), Some(25.0), Some(60.0)];
    var s4 := [Some(18.0), Some(25.0), Some(60.0), Some(45.0)];
    assert s1[..0] == [] && s2[..1] == s1 && s3[..2] == s2 && s4[..3] == s3 && xs[..4] == s4;
    assert Dropna(s1) == [18.0] && OutsideCount(s1, 18.0, 50.0) == 0;
    assert Dropna(s2) == [18.0, 25.0] && OutsideCount(s2, 18.0, 50.0) == 0;
    assert Dropna(s3) == [18.0, 25.0, 60.0] && OutsideCount(s3, 18.0, 50.0) == 1;
    assert Dropna(s4) == [18.0, 25.0, 60.0, 45.0] && OutsideCount(s4, 18.0, 50.0) == 1;
    assert Dropna(xs) == [18.0, 25.0, 60.0, 45.0];
    var v := Dropna(xs);
    assert forall z :: z in v <==> z == 18.0 || z == 25.0 || z == 60.0 || z == 45.0;
    assert Distinct(xs) == {18.0, 25.0, 60.0, 45.0};
    assert OutsideCount(xs, 18.0, 50.0) == 2;
    assert c.NonNull() == 4 && c.Rows() == 5 && c.Missing() == 1;
    assert 1.0 / 5.0 * 100.0 == 20.0;
    assert NullShare(c) == 20.0;
    assert 20.0 * 100.0 == 2000 as real;
    RoundIntegral(2000);
    assert c.Unique() == 4;
    assert IsKept(c);
    var lim := map["Age" := Bounds(18.0, 50.0)];
    var cs := [c];
    var r := LimitsRowOf(lim, c);
    assert cs[..|cs| - 1] == [];
    assert LimitsSpec(cs[..|cs| - 1], lim) == Success([]);
    assert LimitsSpec(cs, lim).value == [] + [r] == [r];
    assert r == LimitsRow("Age", Some(LimitStats(50.0, 18.0, 2)));
    assert RoundHalfEven(NullShare(c) * 100.0) == 2000;
    assert Round2(NullShare(c)) == 20.0;
    assert ProfileOf(c).nullPercent == 20.0;
  }

  // ---------------------------------------------------------------------
  // The analyses: one loop over the columns each

  method FeatureDescription(cols: seq<Column>) returns (rows: seq<ProfileRow>)
    ensures rows == Tabulate(cols, ProfileOf)
  {
    rows := [];
    for i := 0 to |cols|
      invariant rows == Tabulate(cols[..i], ProfileOf)
    {
      var c := cols[i];
      TabulateStep(cols, i, ProfileOf);
      if c.NonNull() == 0 || c.Unique() <= 1 {
        continue;
      }
      rows := rows + [ProfileOf(c)];
    }
    assert cols[..|cols|] == cols;
  }

  method FivePointSummary(cols: seq<Column>) returns (rows: seq<SummaryRow>)
    ensures rows == Tabulate(cols, SummaryOf)
  {
    rows := [];
    for i := 0 to |cols|
      invariant rows == Tabulate(cols[..i], SummaryOf)
    {
      var c := cols[i];
      TabulateStep(cols, i, SummaryOf);
      if c.NonNull() == 0 || c.Unique() <= 1 {
        continue;
      }
      rows := rows + [SummaryOf(c)];
    }
    assert cols[..|cols|] == cols;
  }

  method DeviationAnalysis(cols: seq<Column>, moments: seq<real> -> Moments)
    returns (rows: seq<DeviationRow>)
    ensures rows == Tabulate(cols, DeviationFor(moments))
  {
    rows := [];
    for i := 0 to |cols|
      invariant rows == Tabulate(cols[..i], DeviationFor(moments))
    {
      var c := cols[i];
      TabulateStep(cols, i, DeviationFor(moments));
      if c.NonNull() == 0 || c.Unique() <= 1 {
        continue;
      }
      var row := if c.NumericColumn? then DeviationRow(c.name, Some(moments(Dropna(c.nums))))
                 else DeviationRow(c.name, None);
      rows := rows + [row];
    }
    assert cols[..|cols|] == cols;
  }

  method OutlierAnalysis(cols: seq<Column>) returns (rows: seq<OutlierRow>)
    ensures rows == Tabulate(cols, OutlierOf)
  {
    rows := [];
    for i := 0 to |cols|
      invariant rows == Tabulate(cols[..i], OutlierOf)
    {
      var c := cols[i];
      TabulateStep(cols, i, OutlierOf);
      if c.NonNull() == 0 || c.Unique() <= 1 {
        continue;
      }
      var row;
      match c {
        case NumericColumn(name, xs) =>
          KeptCounts(c);
          var st := ColumnIqr(xs);
          row := OutlierRow(name, Some(st));
        case OtherColumn(name, _) =>
          row := OutlierRow(name, None);
      }
      rows := rows + [row];
    }
    assert cols[..|cols|] == cols;
  }

  /** Quartiles, fences and the count of rows outside them, for one column. */
  method ColumnIqr(xs: seq<Option<real>>) returns (st: IqrStats)
    requires |Dropna(xs)| > 0
    ensures st == IqrStatsOf(xs, Dropna(xs))
  {
    var s := Sort(Dropna(xs));
    var q25, q75, q99 := Percentile(s, 25.0), Percentile(s, 75.0), Percentile(s, 99.0);
    var iqr := q75 - q25;
    var lower, upper := q25 - 1.5 * iqr, q75 + 1.5 * iqr;
    var n := CountOutside(xs, lower, upper);
    st := IqrStats(q25, q75, q99, iqr, upper, lower, n);
  }

  method LimitsAnalysis(cols: seq<Column>, limits: map<string, Bounds>)
    returns (r: Result<seq<LimitsRow>, Error>)
    ensures r == LimitsSpec(cols, limits)
  {
    var rows := [];
    for i := 0 to |cols|
      invariant LimitsSpec(cols[..i], limits) == Success(rows)
    {
      var c := cols[i];
      assert cols[..i + 1][..i] == cols[..i];
      if c.NonNull() == 0 || c.Unique() <= 1 {
        continue;
      }
      if c.name in limits {
        var b := limits[c.name];
        match c {
          case NumericColumn(name, xs) =>
            var n := CountOutside(xs, b.lowerLim, b.upperLim);
            rows := rows + [LimitsRow(name, Some(LimitStats(b.upperLim, b.lowerLim, n)))];
          case OtherColumn(name, _) =>
            LimitsSpecFailsFrom(cols, i + 1, limits);
            return Failure(TypeError(name));
        }
      } else {
        rows := rows + [LimitsRow(c.name, None)];
      }
    }
    assert cols[..|cols|] == cols;
    return Success(rows);
  }

  /** Once a prefix fails, the whole table fails with the same error. */
  lemma {:induction false} LimitsSpecFailsFrom(cols: seq<Column>, i: nat, limits: map<string, Bounds>)
    requires i <= |cols| && LimitsSpec(cols[..i], limits).Failure?
    ensures LimitsSpec(cols, limits) == LimitsSpec(cols[..i], limits)
    decreases |cols| - i
  {
    if i < |cols| {
      assert cols[..i + 1][..i] == cols[..i];
      LimitsSpecFailsFrom(cols, i + 1, limits);
    } else {
      assert cols[..i] == cols;
    }
  }

  // ---------------------------------------------------------------------
  // The DataFrames the analyses return

  const ProfileHeader := ["Feature", "Data_Type", "Initial Rows (With Nulls)",
                          "Non Null Rows", "Null Percent", "Unique Values"]
  const SummaryHeader := ["Feature", "Mean", "Median", "Mode", "Minimum", "Maximum"]
  const DeviationHeader := ["Feature", "Standard Deviation", "Skewness", "Kurtosis"]
  const OutlierHeader := ["Feature", "25%", "75%", "99%", "IQR", "UL_IQR", "LL_IQR",
                          "Number_Of_Outliers_IQR"]
  const LimitsHeader := ["Feature", "UL_Actual", "LL_Actual", "Number_Of_Outliers_Actual"]

  function ProfileCells(r: ProfileRow): Row {
    [Text(r.feature), DType(r.dataType), Int(r.initialRows), Int(r.nonNullRows),
     Real(r.nullPercent), Int(r.uniqueValues)]
  }

  function SummaryCells(r: SummaryRow): Row {
    match r.stats
    case Some(s) => [Text(r.feature), Real(s.mean), Int(s.median), Real(s.mode),
                     Real(s.minimum), Real(s.maximum)]
    case None => [Text(r.feature), NaN, NaN, NaN, NaN, NaN]
  }

  function DeviationCells(r: DeviationRow): Row {
    match r.moments
    case Some(m) => [Text(r.feature), Real(m.std), Real(m.skewness), Real(m.kurtosis)]
    case None => [Text(r.feature), NaN, NaN, NaN]
  }

  function OutlierCells(r: OutlierRow): Row {
    match r.stats
    case Some(s) => [Text(r.feature), Real(s.q25), Real(s.q75), Real(s.q99), Real(s.iqr),
                     Real(s.upper), Real(s.lower), Int(s.outliers)]
    case None => [Text(r.feature), NaN, NaN, NaN, NaN, NaN, NaN, NaN]
  }

  function LimitsCells(r: LimitsRow): Row {
    match r.actual
    case Some(a) => [Text(r.feature), Real(a.upperActual), Real(a.lowerActual), Int(a.outliers)]
    case None => [Text(r.feature), NaN, NaN, NaN]
  }

  function ProfileTable(rows: seq<ProfileRow>): (t: Table)
    ensures WellFormed(t) && |t.rows| == |rows|
    ensures forall i :: 0 <= i < |rows| ==> t.rows[i][0] == Text(rows[i].feature)
  {
    Table(ProfileHeader, seq(|rows|, i requires 0 <= i < |rows| => ProfileCells(rows[i])))
  }

  function SummaryTable(rows: seq<SummaryRow>): (t: Table)
    ensures WellFormed(t) && |t.rows| == |rows|
    ensures forall i :: 0 <= i < |rows| ==> t.rows[i][0] == Text(rows[i].feature)
  {
    Table(SummaryHeader, seq(|rows|, i requires 0 <= i < |rows| => SummaryCells(rows[i])))
  }

  function DeviationTable(rows: seq<DeviationRow>): (t: Table)
    ensures WellFormed(t) && |t.rows| == |rows|
    ensures forall i :: 0 <= i < |rows| ==> t.rows[i][0] == Text(rows[i].feature)
  {
    Table(DeviationHeader, seq(|rows|, i requires 0 <= i < |rows| => DeviationCells(rows[i])))
  }

  function OutlierTable(rows: seq<OutlierRow>): (t: Table)
    ensures WellFormed(t) && |t.rows| == |rows|
    ensures forall i :: 0 <= i < |rows| ==> t.rows[i][0] == Text(rows[i].feature)
  {
    Table(OutlierHeader, seq(|rows|, i requires 0 <= i < |rows| => OutlierCells(rows[i])))
  }

  function LimitsTable(rows: seq<LimitsRow>): (t: Table)
    ensures WellFormed(t) && |t.rows| == |rows|
    ensures forall i :: 0 <= i < |rows| ==> t.rows[i][0] == Text(rows[i].feature)
  {
    Table(LimitsHeader, seq(|rows|, i requires 0 <= i < |rows| => LimitsCells(rows[i])))
  }
}

=== FILE: explore.dfy ===
/**
 * `ExploratoryDataAnalysis.run_descriptive` (explore.py): coerce the named
 * columns of the caller's frame to numbers in place, run the analyses, and
 * left-join their tables on `Feature`, threading from the profile table.
 */
module Explore {
  import opened Wrappers
  import opened Columns
  import opened Tables
  import opened DescriptiveAnalysis
  import opened MergedReport
  import opened ReportFacts

  // ---------------------------------------------------------------------
  // Forced numeric coercion

  /** `pd.to_numeric(column, errors='coerce')`, with `parse` standing for
      pandas' reading of one text cell as a number. */
  function Coerce(c: Column, parse: string -> Option<real>): (r: Column)
    ensures r.name == c.name && r.NumericColumn? && r.Rows() == c.Rows()
    ensures c.NumericColumn? ==> r == c
    ensures c.OtherColumn? ==> forall i :: 0 <= i < |c.texts| ==>
              (r.nums[i].Some? <==> c.texts[i].Some? && parse(c.texts[i].value).Some?) &&
              (r.nums[i].Some? ==> r.nums[i] == parse(c.texts[i].value))
  {
    match c
    case NumericColumn(_, _) => c
    case OtherColumn(name, ts) =>
      NumericColumn(name, seq(|ts|, i requires 0 <= i < |ts| =>
                                match ts[i] case Some(t) => parse(t) case None => None))
  }

  /** Coercing twice is coercing once. */
  lemma CoerceIdempotent(c: Column, parse: string -> Option<real>)
    ensures Coerce(Coerce(c, parse), parse) == Coerce(c, parse)
  {
  }

  /** The column labels, left to right. */
  function NamesOf(cols: seq<Column>): (ns: seq<string>)
    ensures |ns| == |cols| && forall i :: 0 <= i < |cols| ==> ns[i] == cols[i].name
  {
    seq(|cols|, i requires 0 <= i < |cols| => cols[i].name)
  }

  /** Where `data[name]` finds its column, if anywhere. */
  function Position(cols: seq<Column>, name: string): (p: Option<nat>)
    ensures p.None? <==> name !in NamesOf(cols)
    ensures p.Some? ==> p.value < |cols| && cols[p.value].name == name
  {
    if cols == [] then None
    else if cols[0].name == name then Some(0)
    else
      match Position(cols[1..], name)
      case None =>
        assert forall i :: 1 <= i < |cols| ==> NamesOf(cols)[i] == NamesOf(cols[1..])[i - 1];
        None
      case Some(p) => Some(p + 1)
  }

  /** `data[name] = pd.to_numeric(data[name], errors='coerce')` when `name`
      is a label. */
  function CoerceNamed(cols: seq<Column>, name: string, parse: string -> Option<real>): (r: seq<Column>)
    ensures |r| == |cols|
  {
    seq(|cols|, i requires 0 <= i < |cols| =>
      if cols[i].name == name then Coerce(cols[i], parse) else cols[i])
  }

  /** The frame after coercing `names` one after the other. */
  function CoerceAll(cols: seq<Column>, names: seq<string>, parse: string -> Option<real>): (r: seq<Column>)
    ensures |r| == |cols|
  {
    if names == [] then cols
    else CoerceNamed(CoerceAll(cols, names[..|names| - 1], parse), names[|names| - 1], parse)
  }

  /** Coercing a list of names replaces exactly the columns so named by their
      coercion, whatever the order or repetition of the names, and leaves
      every other column as it was. */
  lemma {:induction false} CoerceAllPointwise(cols: seq<Column>, names: seq<string>, parse: string -> Option<real>)
    ensures forall i :: 0 <= i < |cols| ==>
      CoerceAll(cols, names, parse)[i] ==
        if cols[i].name in names then Coerce(cols[i], parse) else cols[i]
  {
    if names != [] {
      var init := names[..|names| - 1];
      var last := names[|names| - 1];
      CoerceAllPointwise(cols, init, parse);
      assert names == init + [last];
      forall i | 0 <= i < |cols|
        ensures CoerceAll(cols, names, parse)[i] ==
                  if cols[i].name in names then Coerce(cols[i], parse) else cols[i]
      {
        CoerceIdempotent(cols[i], parse);
      }
    }
  }

  /** Coercion keeps every label, so it keeps labels unique. */
  lemma CoerceAllNames(cols: seq<Column>, names: seq<string>, parse: string -> Option<real>)
    ensures NamesOf(CoerceAll(cols, names, parse)) == NamesOf(cols)
    ensures UniqueNames(cols) ==> UniqueNames(CoerceAll(cols, names, parse))
  {
    CoerceAllPointwise(cols, names, parse);
  }

  /** How many of `names` are labels before the first one that is not. */
  function FirstMissing(cols: seq<Column>, names: seq<string>): (k: nat)
    ensures k <= |names|
    ensures forall j :: 0 <= j < k ==> names[j] in NamesOf(cols)
    ensures k < |names| ==> names[k] !in NamesOf(cols)
  {
    if names == [] || names[0] !in NamesOf(cols) then 0
    else 1 + FirstMissing(cols, names[1..])
  }

  /** A pandas DataFrame, as far as run_descriptive changes it. */
  class DataFrame {
    var columns: seq<Column>

    /** Labels are unique: `data[label]` is then one column. */
    ghost predicate Valid()
      reads this
    {
      UniqueNames(columns)
    }

    constructor (cols: seq<Column>)
      requires UniqueNames(cols)
      ensures Valid() && columns == cols
    {
      columns := cols;
    }

    /** The loop over `force_column`: each named column is replaced in place
        by its coercion; the first name that is not a label raises KeyError,
        after the names before it have been coerced. */
    method ForceNumeric(names: seq<string>, parse: string -> Option<real>)
      returns (r: Result<(), Error>)
      requires Valid()
      modifies this
      ensures Valid()
      ensures var k := FirstMissing(old(columns), names);
        columns == CoerceAll(old(columns), names[..k], parse) &&
        r == if k == |names| then Success(()) else Failure(KeyError(names[k]))
    {
      ghost var original := columns;
      for k := 0 to |names|
        invariant k <= FirstMissing(original, names)
        invariant columns == CoerceAll(original, names[..k], parse)
        invariant NamesOf(columns) == NamesOf(original) && UniqueNames(columns)
      {
        match Position(columns, names[k]) {
          case None =>
            assert k == FirstMissing(original, names);
            return Failure(KeyError(names[k]));
          case Some(i) =>
            assert k < FirstMissing(original, names) by {
              assert names[k] == NamesOf(columns)[i];
            }
            assert columns[i := Coerce(columns[i], parse)] == CoerceAll(original, names[..k + 1], parse) by {
              CoerceStep(columns, i, names[k], parse);
              CoerceAllSnoc(original, names, k, parse);
            }
            assert NamesOf(CoerceAll(original, names[..k + 1], parse)) == NamesOf(original) by {
              CoerceAllNames(original, names[..k + 1], parse);
            }
            assert UniqueNames(CoerceAll(original, names[..k + 1], parse)) by {
              CoerceAllNames(original, names[..k + 1], parse);
            }
            columns := columns[i := Coerce(columns[i], parse)];
        }
      }
      assert names[..|names|] == names;
      return Success(());
    }
  }

  /** Replacing the column found under `name` is coercing every column so
      named, when labels are unique. */
  lemma CoerceStep(cols: seq<Column>, i: nat, name: string, parse: string -> Option<real>)
    requires UniqueNames(cols) && i < |cols| && cols[i].name == name
    ensures cols[i := Coerce(cols[i], parse)] == CoerceNamed(cols, name, parse)
  {
    var r := cols[i := Coerce(cols[i], parse)];
    forall j | 0 <= j < |cols| ensures r[j] == CoerceNamed(cols, name, parse)[j] {
      if j != i {
        assert cols[j].name != cols[i].name;
      }
    }
  }

  /** One more name: coerce it on top of the earlier ones. */
  lemma CoerceAllSnoc(cols: seq<Column>, names: seq<string>, k: nat, parse: string -> Option<real>)
    requires k < |names|
    ensures CoerceAll(cols, names[..k + 1], parse) ==
            CoerceNamed(CoerceAll(cols, names[..k], parse), names[k], parse)
  {
    assert names[..k + 1][..k] == names[..k];
  }

  // ---------------------------------------------------------------------
  // run_descriptive

  /** `run_descriptive(data, force_column, limits, save_path)`: the frame is
      coerced in place first; the report, or the error, follows from the
      coerced columns. Writing to `save_path` and printing do not change
      the returned table. */
  method RunDescriptive(data: DataFrame, forceColumn: Option<seq<string>>,
                        limits: Option<map<string, Bounds>>,
                        parse: string -> Option<real>, moments: seq<real> -> Moments)
    returns (r: Result<Table, Error>)
    requires data.Valid()
    modifies data
    ensures data.Valid()
    ensures forceColumn.None? ==> data.columns == old(data.columns)
    ensures forceColumn.Some? ==>
      var names := forceColumn.value;
      var k := FirstMissing(old(data.columns), names);
      data.columns == CoerceAll(old(data.columns), names[..k], parse) &&
      (k < |names| ==> r == Failure(KeyError(names[k])))
    ensures (forceColumn.None? || FirstMissing(old(data.columns), forceColumn.value) == |forceColumn.value|) ==>
      r == Report(data.columns, limits, moments)
  {
    if forceColumn.Some? {
      var forced := data.ForceNumeric(forceColumn.value, parse);
      if forced.Failure? {
        return Failure(forced.error);
      }
    }
    var cols := data.columns;
    var fd := FeatureDescription(cols);
    var fps := FivePointSummary(cols);
    var da := DeviationAnalysis(cols, moments);
    var oa := OutlierAnalysis(cols);
    var base := [ProfileTable(fd)] + [SummaryTable(fps)] + [DeviationTable(da)] + [OutlierTable(oa)];
    assert base == [ProfileReport(cols)] + [SummaryReport(cols)] +
                   [DeviationReport(cols, moments)] + [OutlierReport(cols)];
    if limits.Some? {
      var la := LimitsAnalysis(cols, limits.value);
      if la.Failure? {
        assert LimitsReport(cols, limits.value) == Failure(la.error);
        ReportFromTables(cols, limits, moments, Failure(la.error));
        return Failure(la.error);
      }
      var ts := base + [LimitsTable(la.value)];
      assert LimitsReport(cols, limits.value) == Success(LimitsTable(la.value));
      ReportFromTables(cols, limits, moments, Success(ts));
      r := Success(MergeAll(ts));
    } else {
      ReportFromTables(cols, limits, moments, Success(base));
      r := Success(MergeAll(base));
    }
  }
}

=== FILE: report.dfy ===
/**
 * The tables `run_descriptive` builds (explore.py): the DataFrame each
 * analysis returns, and their left join on `Feature`, threading from the
 * profile table.
 */
module MergedReport {
  import opened Wrappers
  import opened Columns
  import opened Tables
  import opened DescriptiveAnalysis

  /** The DataFrame feature_description returns. */
  function ProfileReport(cols: seq<Column>): (t: Table)
    ensures WellFormed(t) && t.header == ProfileHeader
  {
    ProfileTable(Tabulate(cols, ProfileOf))
  }

  /** The DataFrame five_point_summary returns. */
  function SummaryReport(cols: seq<Column>): (t: Table)
    ensures WellFormed(t) && t.header == SummaryHeader
  {
    SummaryTable(Tabulate(cols, SummaryOf))
  }

  /** The DataFrame deviation_analysis returns. */
  function DeviationReport(cols: seq<Column>, moments: seq<real> -> Moments): (t: Table)
    ensures WellFormed(t) && t.header == DeviationHeader
  {
    DeviationTable(Tabulate(cols, DeviationFor(moments)))
  }

  /** The DataFrame outlier_analysis returns. */
  function OutlierReport(cols: seq<Column>): (t: Table)
    ensures WellFormed(t) && t.header == OutlierHeader
  {
    OutlierTable(Tabulate(cols, OutlierOf))
  }

  /** The DataFrame limits_analysis returns, or the error it raises. */
  function LimitsReport(cols: seq<Column>, limits: map<string, Bounds>): (r: Result<Table, Error>)
    ensures r.Success? ==> WellFormed(r.value) && r.value.header == LimitsHeader
  {
    match LimitsSpec(cols, limits)
    case Failure(e) => Failure(e)
    case Success(rows) => Success(LimitsTable(rows))
  }

  /** The `Feature` keys every analysis table has: the kept labels, in
      column order. */
  function KeptKeys(cols: seq<Column>): (ks: seq<Field>)
    ensures |ks| == |Kept(cols)|
  {
    seq(|Kept(cols)|, i requires 0 <= i < |Kept(cols)| => Text(Kept(cols)[i].name))
  }

  /** The analysis tables in join order; the limits table only when limits
      were given, and the error limits_analysis raises. */
  function AnalysisTables(cols: seq<Column>, limits: Option<map<string, Bounds>>,
                          moments: seq<real> -> Moments): (r: Result<seq<Table>, Error>)
    ensures r.Success? ==> |r.value| == (if limits.Some? then 5 else 4)
  {
    var base := [ProfileReport(cols)] + [SummaryReport(cols)] +
                [DeviationReport(cols, moments)] + [OutlierReport(cols)];
    match limits
    case None => Success(base)
    case Some(l) =>
      match LimitsReport(cols, l)
      case Failure(e) => Failure(e)
      case Success(t) => Success(base + [t])
  }

  lemma AnalysisTablesWellFormed(cols: seq<Column>, limits: Option<map<string, Bounds>>,
                                 moments: seq<real> -> Moments)
    requires AnalysisTables(cols, limits, moments).Success?
    ensures AllWellFormed(AnalysisTables(cols, limits, moments).value)
  {
    var fd, fps, da, oa := ProfileReport(cols), SummaryReport(cols),
                           DeviationReport(cols, moments), OutlierReport(cols);
    if limits.Some? {
      AllWellFormedOfFive(fd, fps, da, oa, LimitsReport(cols, limits.value).value);
    } else {
      AllWellFormedOfFour(fd, fps, da, oa);
    }
  }

  /** The table run_descriptive returns, or the error it raises once the
      coercion is done. */
  function Report(cols: seq<Column>, limits: Option<map<string, Bounds>>,
                  moments: seq<real> -> Moments): Result<Table, Error>
  {
    match AnalysisTables(cols, limits, moments)
    case Failure(e) => Failure(e)
    case Success(ts) =>
      AnalysisTablesWellFormed(cols, limits, moments);
      Success(MergeAll(ts))
  }

  /** Row `i` of the report: the profile row of the i-th kept column followed
      by the non-key cells of that column's row in every later table. */
  function ReportRow(c: Column, limits: Option<map<string, Bounds>>,
                     moments: seq<real> -> Moments): Row
    requires IsKept(c) && (limits.Some? ==> Comparable(limits.value, c))
  {
    ProfileCells(ProfileOf(c)) + SummaryCells(SummaryOf(c))[1..] +
    DeviationCells(DeviationFor(moments)(c))[1..] + OutlierCells(OutlierOf(c))[1..] +
    (if limits.Some? then LimitsCells(LimitsRowOf(limits.value, c))[1..] else [])
  }
}

=== FILE: report_facts.dfy ===
/**
 * What the merged report of `run_descriptive` holds: one row per kept
 * column, in column order, each the rows the analyses build for that column
 * side by side, under the analyses' labels in join order.
 */
module ReportFacts {
  import opened Wrappers
  import opened Columns
  import opened Tables
  import opened DescriptiveAnalysis
  import opened MergedReport

  /** Distinct labels give distinct keys. */
  lemma KeptKeysUnique(cols: seq<Column>)
    requires UniqueNames(cols)
    ensures forall i, j :: 0 <= i < j < |KeptKeys(cols)| ==> KeptKeys(cols)[i] != KeptKeys(cols)[j]
  {
    KeptUniqueNames(cols);
  }

  lemma KeysFromRows(t: Table, cols: seq<Column>)
    requires WellFormed(t) && |t.rows| == |Kept(cols)|
    requires forall i :: 0 <= i < |t.rows| ==> t.rows[i][0] == Text(Kept(cols)[i].name)
    ensures Keys(t) == KeptKeys(cols)
  {
  }

  /** feature_description's table is keyed by the kept labels, in order. */
  lemma ProfileKeys(cols: seq<Column>)
    ensures |ProfileReport(cols).rows| == |Kept(cols)| && Keys(ProfileReport(cols)) == KeptKeys(cols)
  {
    var rows := Tabulate(cols, ProfileOf);
    TabulateIsMapOfKept(cols, ProfileOf);
    var t := ProfileReport(cols);
    forall i | 0 <= i < |t.rows| ensures t.rows[i][0] == Text(Kept(cols)[i].name) {
      assert t.rows[i][0] == Text(rows[i].feature);
    }
    KeysFromRows(t, cols);
  }

  /** five_point_summary's table is keyed by the kept labels, in order. */
  lemma SummaryKeys(cols: seq<Column>)
    ensures |SummaryReport(cols).rows| == |Kept(cols)| && Keys(SummaryReport(cols)) == KeptKeys(cols)
  {
    var rows := Tabulate(cols, SummaryOf);
    TabulateIsMapOfKept(cols, SummaryOf);
    var t := SummaryReport(cols);
    forall i | 0 <= i < |t.rows| ensures t.rows[i][0] == Text(Kept(cols)[i].name) {
      assert t.rows[i][0] == Text(rows[i].feature);
    }
    KeysFromRows(t, cols);
  }

  /** deviation_analysis's table is keyed by the kept labels, in order. */
  lemma DeviationKeys(cols: seq<Column>, moments: seq<real> -> Moments)
    ensures |DeviationReport(cols, moments).rows| == |Kept(cols)|
    ensures Keys(DeviationReport(cols, moments)) == KeptKeys(cols)
  {
    var rows := Tabulate(cols, DeviationFor(moments));
    TabulateIsMapOfKept(cols, DeviationFor(moments));
    var t := DeviationReport(cols, moments);
    forall i | 0 <= i < |t.rows| ensures t.rows[i][0] == Text(Kept(cols)[i].name) {
      assert t.rows[i][0] == Text(rows[i].feature);
    }
    KeysFromRows(t, cols);
  }

  /** outlier_analysis's table is keyed by the kept labels, in order. */
  lemma OutlierKeys(cols: seq<Column>)
    ensures |OutlierReport(cols).rows| == |Kept(cols)| && Keys(OutlierReport(cols)) == KeptKeys(cols)
  {
    var rows := Tabulate(cols, OutlierOf);
    TabulateIsMapOfKept(cols, OutlierOf);
    var t := OutlierReport(cols);
    forall i | 0 <= i < |t.rows| ensures t.rows[i][0] == Text(Kept(cols)[i].name) {
      assert t.rows[i][0] == Text(rows[i].feature);
    }
    KeysFromRows(t, cols);
  }

  /** limits_analysis's table, when there is one, is keyed by the kept
      labels, in order. */
  lemma LimitsKeys(cols: seq<Column>, limits: map<string, Bounds>)
    requires LimitsReport(cols, limits).Success?
    ensures |LimitsReport(cols, limits).value.rows| == |Kept(cols)|
    ensures Keys(LimitsReport(cols, limits).value) == KeptKeys(cols)
  {
    var rows := LimitsSpec(cols, limits).value;
    LimitsSpecCharacterised(cols, limits);
    var t := LimitsReport(cols, limits).value;
    forall i | 0 <= i < |t.rows| ensures t.rows[i][0] == Text(Kept(cols)[i].name) {
      assert t.rows[i][0] == Text(rows[i].feature);
    }
    KeysFromRows(t, cols);
  }

  /** Each analysis table has one row per kept column, in column order: the
      row that analysis builds for that column. */
  lemma ReportRows(cols: seq<Column>, moments: seq<real> -> Moments)
    ensures |ProfileReport(cols).rows| == |Kept(cols)| && |SummaryReport(cols).rows| == |Kept(cols)|
    ensures |DeviationReport(cols, moments).rows| == |Kept(cols)| && |OutlierReport(cols).rows| == |Kept(cols)|
    ensures forall i :: 0 <= i < |Kept(cols)| ==>
      IsKept(Kept(cols)[i]) &&
      ProfileReport(cols).rows[i] == ProfileCells(ProfileOf(Kept(cols)[i])) &&
      SummaryReport(cols).rows[i] == SummaryCells(SummaryOf(Kept(cols)[i])) &&
      DeviationReport(cols, moments).rows[i] == DeviationCells(DeviationFor(moments)(Kept(cols)[i])) &&
      OutlierReport(cols).rows[i] == OutlierCells(OutlierOf(Kept(cols)[i]))
  {
    TabulateIsMapOfKept(cols, ProfileOf);
    TabulateIsMapOfKept(cols, SummaryOf);
    TabulateIsMapOfKept(cols, DeviationFor(moments));
    TabulateIsMapOfKept(cols, OutlierOf);
    forall i | 0 <= i < |Kept(cols)| ensures IsKept(Kept(cols)[i]) {
      KeptMembers(cols, Kept(cols)[i]);
    }
  }

  /** The limits table has one row per kept column, in column order, when
      limits_analysis succeeds. */
  lemma LimitsReportRows(cols: seq<Column>, limits: map<string, Bounds>)
    requires LimitsReport(cols, limits).Success?
    ensures |LimitsReport(cols, limits).value.rows| == |Kept(cols)|
    ensures forall i :: 0 <= i < |Kept(cols)| ==>
      Comparable(limits, Kept(cols)[i]) &&
      LimitsReport(cols, limits).value.rows[i] == LimitsCells(LimitsRowOf(limits, Kept(cols)[i]))
  {
    LimitsSpecCharacterised(cols, limits);
  }

  /** Every analysis table is keyed by the kept labels, in column order. */
  lemma AnalysisKeys(cols: seq<Column>, limits: Option<map<string, Bounds>>,
                     moments: seq<real> -> Moments)
    requires AnalysisTables(cols, limits, moments).Success?
    ensures AllWellFormed(AnalysisTables(cols, limits, moments).value)
    ensures var ts := AnalysisTables(cols, limits, moments).value;
      forall k :: 0 <= k < |ts| ==> Keys(ts[k]) == KeptKeys(cols)
  {
    var fd, fps, da, oa := ProfileReport(cols), SummaryReport(cols),
                           DeviationReport(cols, moments), OutlierReport(cols);
    ProfileKeys(cols);
    SummaryKeys(cols);
    DeviationKeys(cols, moments);
    OutlierKeys(cols);
    if limits.Some? {
      LimitsKeys(cols, limits.value);
      SameKeysOfFive(fd, fps, da, oa, LimitsReport(cols, limits.value).value, KeptKeys(cols));
    } else {
      SameKeysOfFour(fd, fps, da, oa, KeptKeys(cols));
    }
  }

  /** The analysis tables are keyed alike, by the kept labels. */
  lemma AnalysisKeyed(cols: seq<Column>, limits: Option<map<string, Bounds>>,
                      moments: seq<real> -> Moments, ts: seq<Table>)
    requires UniqueNames(cols) && AnalysisTables(cols, limits, moments) == Success(ts)
    ensures KeyedBy(ts, KeptKeys(cols)) && |KeptKeys(cols)| == |Kept(cols)|
  {
    AnalysisKeys(cols, limits, moments);
    KeptKeysUnique(cols);
  }

  /** The report is the merge of the analysis tables. */
  lemma ReportIsMerge(cols: seq<Column>, limits: Option<map<string, Bounds>>,
                      moments: seq<real> -> Moments, ts: seq<Table>, rep: Table)
    requires AnalysisTables(cols, limits, moments) == Success(ts)
    requires Report(cols, limits, moments) == Success(rep)
    ensures AllWellFormed(ts) && |ts| >= 1 && rep == MergeAll(ts)
  {
    ReportFromTables(cols, limits, moments, Success(ts));
  }

  /** With unique labels the left joins neither drop nor duplicate rows: the
      report has exactly the profile table's rows, in the same order, each
      extended by the other tables' cells for the same feature. */
  lemma ReportAligned(cols: seq<Column>, limits: Option<map<string, Bounds>>,
                      moments: seq<real> -> Moments, ts: seq<Table>, rep: Table)
    requires UniqueNames(cols)
    requires AnalysisTables(cols, limits, moments) == Success(ts)
    requires Report(cols, limits, moments) == Success(rep)
    ensures |rep.rows| == |Kept(cols)| && |ts| >= 1 && AllWellFormed(ts) && SideBySide(ts, rep.rows)
  {
    ReportIsMerge(cols, limits, moments, ts, rep);
    AnalysisKeyed(cols, limits, moments, ts);
    MergeAllOnKeys(ts, KeptKeys(cols), rep);
  }

  /** The report is keyed by the kept labels, in column order, and its
      labels are the profile labels followed by each later table's non-key
      labels, the limits labels only when limits were given. */
  lemma ReportShape(cols: seq<Column>, limits: Option<map<string, Bounds>>,
                    moments: seq<real> -> Moments, rep: Table)
    requires UniqueNames(cols) && Report(cols, limits, moments) == Success(rep)
    ensures Keys(rep) == KeptKeys(cols)
    ensures rep.header == ProfileHeader + SummaryHeader[1..] + DeviationHeader[1..] +
                          OutlierHeader[1..] + (if limits.Some? then LimitsHeader[1..] else [])
  {
    var tables := AnalysisTables(cols, limits, moments);
    ReportFromTables(cols, limits, moments, tables);
    var ts := tables.value;
    ReportIsMerge(cols, limits, moments, ts, rep);
    AnalysisKeyed(cols, limits, moments, ts);
    MergeAllOnKeys(ts, KeptKeys(cols), rep);
    ReportHeader(cols, limits, moments);
  }

  /** At every merge the right table's non-key labels are new to the
      labels merged so far, limits labels included, so no merge meets a
      clashing label that pandas would suffix. */
  lemma ReportLabelsDistinct()
    ensures forall l :: l in SummaryHeader[1..] ==> l !in ProfileHeader
    ensures forall l :: l in DeviationHeader[1..] ==> l !in ProfileHeader + SummaryHeader[1..]
    ensures forall l :: l in OutlierHeader[1..] ==>
              l !in ProfileHeader + SummaryHeader[1..] + DeviationHeader[1..]
    ensures forall l :: l in LimitsHeader[1..] ==>
              l !in ProfileHeader + SummaryHeader[1..] + DeviationHeader[1..] + OutlierHeader[1..]
  {
    SummaryLabelsNew();
    DeviationLabelsNew();
    OutlierLabelsNew();
    LimitsLabelsNew();
  }

  /** The labels each merge adds, checked one merge at a time. */
  lemma SummaryLabelsNew()
    ensures forall l :: l in SummaryHeader[1..] ==> l !in ProfileHeader
  {
  }

  lemma DeviationLabelsNew()
    ensures forall l :: l in DeviationHeader[1..] ==> l !in ProfileHeader + SummaryHeader[1..]
  {
  }

  lemma OutlierLabelsNew()
    ensures forall l :: l in OutlierHeader[1..] ==>
              l !in ProfileHeader + SummaryHeader[1..] + DeviationHeader[1..]
  {
  }

  lemma LimitsLabelsNew()
    ensures forall l :: l in LimitsHeader[1..] ==>
              l !in ProfileHeader + SummaryHeader[1..] + DeviationHeader[1..] + OutlierHeader[1..]
  {
  }

  /** Row `i` of the report is the profile row of the i-th kept column
      followed by the non-key cells of that column's row in every later
      table. */
  lemma ReportRowIs(cols: seq<Column>, limits: Option<map<string, Bounds>>,
                    moments: seq<real> -> Moments, ts: seq<Table>, rep: Table, i: nat)
    requires UniqueNames(cols) && i < |Kept(cols)|
    requires AnalysisTables(cols, limits, moments) == Success(ts)
    requires Report(cols, limits, moments) == Success(rep)
    ensures IsKept(Kept(cols)[i]) && (limits.Some? ==> Comparable(limits.value, Kept(cols)[i]))
    ensures i < |rep.rows| && rep.rows[i] == ReportRow(Kept(cols)[i], limits, moments)
  {
    ReportRowMerged(cols, limits, moments, ts, rep, i);
    ReportRowAcross(cols, limits, moments, ts, i);
  }

  lemma ReportRowMerged(cols: seq<Column>, limits: Option<map<string, Bounds>>,
                        moments: seq<real> -> Moments, ts: seq<Table>, rep: Table, i: nat)
    requires UniqueNames(cols) && i < |Kept(cols)|
    requires AnalysisTables(cols, limits, moments) == Success(ts)
    requires Report(cols, limits, moments) == Success(rep)
    ensures AllWellFormed(ts) && AllHaveRows(ts, i + 1)
    ensures i < |rep.rows| && rep.rows[i] == RowAcross(ts, i)
  {
    ReportIsMerge(cols, limits, moments, ts, rep);
    AnalysisKeyed(cols, limits, moments, ts);
    MergeAllRowAt(ts, KeptKeys(cols), rep, i);
  }

  lemma ReportHeader(cols: seq<Column>, limits: Option<map<string, Bounds>>,
                     moments: seq<real> -> Moments)
    requires AnalysisTables(cols, limits, moments).Success?
    ensures AllWellFormed(AnalysisTables(cols, limits, moments).value)
    ensures MergedHeader(AnalysisTables(cols, limits, moments).value) ==
      ProfileHeader + SummaryHeader[1..] + DeviationHeader[1..] + OutlierHeader[1..] +
      (if limits.Some? then LimitsHeader[1..] else [])
  {
    AnalysisTablesAre(cols, limits, moments);
    var fd, fps, da, oa := ProfileReport(cols), SummaryReport(cols),
                           DeviationReport(cols, moments), OutlierReport(cols);
    if limits.Some? {
      MergedHeaderOfFive(fd, fps, da, oa, LimitsReport(cols, limits.value).value);
    } else {
      MergedHeaderOfFour(fd, fps, da, oa);
    }
  }

  /** The analysis tables, spelled out. */
  lemma AnalysisTablesAre(cols: seq<Column>, limits: Option<map<string, Bounds>>,
                          moments: seq<real> -> Moments)
    requires AnalysisTables(cols, limits, moments).Success?
    ensures limits.Some? ==> LimitsReport(cols, limits.value).Success?
    ensures AnalysisTables(cols, limits, moments).value ==
      [ProfileReport(cols)] + [SummaryReport(cols)] + [DeviationReport(cols, moments)] +
      [OutlierReport(cols)] + (if limits.Some? then [LimitsReport(cols, limits.value).value] else [])
  {
  }

  lemma ReportRowAcross(cols: seq<Column>, limits: Option<map<string, Bounds>>,
                        moments: seq<real> -> Moments, ts: seq<Table>, i: nat)
    requires AnalysisTables(cols, limits, moments).Success?
    requires ts == AnalysisTables(cols, limits, moments).value
    requires i < |Kept(cols)|
    ensures IsKept(Kept(cols)[i]) && (limits.Some? ==> Comparable(limits.value, Kept(cols)[i]))
    ensures AllWellFormed(ts) && AllHaveRows(ts, i + 1)
    ensures RowAcross(ts, i) == ReportRow(Kept(cols)[i], limits, moments)
  {
    var c := Kept(cols)[i];
    AnalysisTablesAre(cols, limits, moments);
    var fd, fps, da, oa := ProfileReport(cols), SummaryReport(cols),
                           DeviationReport(cols, moments), OutlierReport(cols);
    ProfileRowAt(cols, i);
    SummaryRowAt(cols, i);
    DeviationRowAt(cols, moments, i);
    OutlierRowAt(cols, i);
    var rp, rs := ProfileCells(ProfileOf(c)), SummaryCells(SummaryOf(c));
    var rd, ro := DeviationCells(DeviationFor(moments)(c)), OutlierCells(OutlierOf(c));
    if limits.Some? {
      var la := LimitsReport(cols, limits.value).value;
      LimitsRowAt(cols, limits.value, i);
      var rl := LimitsCells(LimitsRowOf(limits.value, c));
      assert ts == [fd] + [fps] + [da] + [oa] + [la];
      RowAcrossOfFive(fd, fps, da, oa, la, i, rp, rs, rd, ro, rl);
      assert ReportRow(c, limits, moments) == rp + rs[1..] + rd[1..] + ro[1..] + rl[1..];
    } else {
      assert ts == [fd] + [fps] + [da] + [oa];
      RowAcrossOfFour(fd, fps, da, oa, i, rp, rs, rd, ro);
      assert ReportRow(c, limits, moments) == rp + rs[1..] + rd[1..] + ro[1..] + [];
    }
  }

  lemma ProfileRowAt(cols: seq<Column>, i: nat)
    requires i < |Kept(cols)|
    ensures IsKept(Kept(cols)[i]) && i < |ProfileReport(cols).rows|
    ensures ProfileReport(cols).rows[i] == ProfileCells(ProfileOf(Kept(cols)[i]))
  {
    KeptMembers(cols, Kept(cols)[i]);
    TabulateIsMapOfKept(cols, ProfileOf);
  }

  lemma SummaryRowAt(cols: seq<Column>, i: nat)
    requires i < |Kept(cols)|
    ensures IsKept(Kept(cols)[i]) && i < |SummaryReport(cols).rows|
    ensures SummaryReport(cols).rows[i] == SummaryCells(SummaryOf(Kept(cols)[i]))
  {
    KeptMembers(cols, Kept(cols)[i]);
    TabulateIsMapOfKept(cols, SummaryOf);
  }

  lemma DeviationRowAt(cols: seq<Column>, moments: seq<real> -> Moments, i: nat)
    requires i < |Kept(cols)|
    ensures i < |DeviationReport(cols, moments).rows|
    ensures DeviationReport(cols, moments).rows[i] == DeviationCells(DeviationFor(moments)(Kept(cols)[i]))
  {
    TabulateIsMapOfKept(cols, DeviationFor(moments));
  }

  lemma OutlierRowAt(cols: seq<Column>, i: nat)
    requires i < |Kept(cols)|
    ensures IsKept(Kept(cols)[i]) && i < |OutlierReport(cols).rows|
    ensures OutlierReport(cols).rows[i] == OutlierCells(OutlierOf(Kept(cols)[i]))
  {
    KeptMembers(cols, Kept(cols)[i]);
    TabulateIsMapOfKept(cols, OutlierOf);
  }

  lemma LimitsRowAt(cols: seq<Column>, limits: map<string, Bounds>, i: nat)
    requires LimitsReport(cols, limits).Success? && i < |Kept(cols)|
    ensures Comparable(limits, Kept(cols)[i]) && i < |LimitsReport(cols, limits).value.rows|
    ensures LimitsReport(cols, limits).value.rows[i] == LimitsCells(LimitsRowOf(limits, Kept(cols)[i]))
  {
    LimitsSpecCharacterised(cols, limits);
  }

  /** The report fails exactly when limits were given and some kept
      non-numeric column has bounds. */
  lemma ReportFails(cols: seq<Column>, limits: Option<map<string, Bounds>>,
                    moments: seq<real> -> Moments)
    ensures Report(cols, limits, moments).Failure? <==>
      limits.Some? && exists k :: 0 <= k < |Kept(cols)| && !Comparable(limits.value, Kept(cols)[k])
  {
    if limits.Some? {
      LimitsSpecCharacterised(cols, limits.value);
    }
  }

  /** The report is the merge of the analysis tables, or their error. */
  lemma ReportFromTables(cols: seq<Column>, limits: Option<map<string, Bounds>>,
                         moments: seq<real> -> Moments, tables: Result<seq<Table>, Error>)
    requires AnalysisTables(cols, limits, moments) == tables
    ensures tables.Success? ==>
      AllWellFormed(tables.value) && Report(cols, limits, moments) == Success(MergeAll(tables.value))
    ensures tables.Failure? ==> Report(cols, limits, moments) == Failure(tables.error)
  {
    if tables.Success? {
      AnalysisTablesWellFormed(cols, limits, moments);
    }
  }
}

=== FILE: stats.dfy ===
/**
 * The numeric statistics the analyses take from NumPy and SciPy, over exact
 * reals: sum, mean, minimum, maximum, sorting, median, mode, the "linear"
 * percentile, and round-half-even rounding.
 */
module Stats {

  /** Sum of a sequence, accumulated left to right. */
  function Sum(v: seq<real>): real {
    if v == [] then 0.0 else Sum(v[..|v| - 1]) + v[|v| - 1]
  }

  /** `np.mean`. */
  function Mean(v: seq<real>): real
    requires |v| > 0
  {
    Sum(v) / |v| as real
  }

  /** `np.min`: an element of `v` no larger than any other. */
  function Min(v: seq<real>): (m: real)
    requires |v| > 0
    ensures m in v && forall x :: x in v ==> m <= x
  {
    if |v| == 1 then v[0]
    else
      var m := Min(v[1..]);
      assert v == [v[0]] + v[1..];
      if v[0] < m then v[0] else m
  }

  /** `np.max`: an element of `v` no smaller than any other. */
  function Max(v: seq<real>): (m: real)
    requires |v| > 0
    ensures m in v && forall x :: x in v ==> x <= m
  {
    if |v| == 1 then v[0]
    else
      var m := Max(v[1..]);
      assert v == [v[0]] + v[1..];
      if v[0] > m then v[0] else m
  }

  /** Two different values force the minimum strictly below the maximum. */
  lemma MinBelowMax(v: seq<real>, x: real, y: real)
    requires x in v && y in v && x != y
    ensures Min(v) < Max(v)
  {
  }

  /** Bounds on every element bound the sum. */
  lemma {:induction false} SumBounds(v: seq<real>, lo: real, hi: real)
    requires forall x :: x in v ==> lo <= x <= hi
    ensures |v| as real * lo <= Sum(v) <= |v| as real * hi
  {
    if v != [] {
      var init := v[..|v| - 1];
      assert forall x :: x in init ==> x in v;
      assert v[|v| - 1] in v;
      SumBounds(init, lo, hi);
      assert |v| as real == |init| as real + 1.0;
      Distribute(|init| as real, lo);
      Distribute(|init| as real, hi);
    }
  }

  lemma Distribute(m: real, x: real)
    ensures (m + 1.0) * x == m * x + x
  {
  }

  /** The mean lies between the minimum and the maximum. */
  lemma MeanBounds(v: seq<real>)
    requires |v| > 0
    ensures Min(v) <= Mean(v) <= Max(v)
  {
    MeanBetween(v, Min(v), Max(v));
  }

  /** The mean lies within any bounds that hold of every value. */
  lemma MeanBetween(v: seq<real>, lo: real, hi: real)
    requires |v| > 0 && forall x :: x in v ==> lo <= x <= hi
    ensures lo <= Mean(v) <= hi
  {
    SumBounds(v, lo, hi);
    QuotientWithin(Sum(v), |v| as real, lo, hi);
  }

  lemma QuotientWithin(s: real, n: real, lo: real, hi: real)
    requires n > 0.0 && n * lo <= s <= n * hi
    ensures lo <= s / n <= hi
  {
    DivMonotone(n * lo, s, n);
    DivMonotone(s, n * hi, n);
    assert n * lo / n == lo;
    assert n * hi / n == hi;
  }

  lemma DivMonotone(a: real, b: real, d: real)
    requires a <= b && d > 0.0
    ensures a / d <= b / d
  {
  }

  predicate Sorted(s: seq<real>) {
    forall i, j :: 0 <= i <= j < |s| ==> s[i] <= s[j]
  }

  /** Insert into a sorted sequence. */
  function Insert(x: real, s: seq<real>): (r: seq<real>)
    requires Sorted(s)
    ensures Sorted(r) && multiset(r) == multiset(s) + multiset{x}
    ensures |r| == |s| + 1
  {
    if s == [] || x <= s[0] then [x] + s
    else
      var t := Insert(x, s[1..]);
      assert s == [s[0]] + s[1..];
      LowerBound(s[0], t, s[1..], x);
      [s[0]] + t
  }

  /** A lower bound of `u` and of `x` bounds every element of a sequence
      holding exactly `u` and `x`. */
  lemma LowerBound(b: real, t: seq<real>, u: seq<real>, x: real)
    requires multiset(t) == multiset(u) + multiset{x}
    requires b <= x && forall y :: y in u ==> b <= y
    ensures forall i :: 0 <= i < |t| ==> b <= t[i]
  {
    forall i | 0 <= i < |t| ensures b <= t[i] {
      assert t[i] in multiset(t);
      assert t[i] in multiset(u) || t[i] == x;
      if t[i] != x {
        assert t[i] in u;
      }
    }
  }

  /** `np.sort`: the ascending permutation of `v`. */
  function Sort(v: seq<real>): (r: seq<real>)
    ensures Sorted(r) && multiset(r) == multiset(v)
    ensures |r| == |v|
  {
    if v == [] then []
    else
      assert v == [v[0]] + v[1..];
      Insert(v[0], Sort(v[1..]))
  }

  /** Sorting keeps the length, and every element of the sorted sequence
      lies between the minimum and the maximum of the input. */
  lemma SortedWithin(v: seq<real>)
    requires |v| > 0
    ensures |Sort(v)| == |v|
    ensures forall i :: 0 <= i < |v| ==> Min(v) <= Sort(v)[i] <= Max(v)
  {
    var s := Sort(v);
    forall i | 0 <= i < |s| ensures Min(v) <= s[i] <= Max(v) {
      assert s[i] in multiset(s);
      assert s[i] in v;
    }
  }

  /** `np.median`: the middle element of the sorted values, or the mean of
      the two middle elements when there is an even number of them. */
  function Median(v: seq<real>): real
    requires |v| > 0
  {
    var s := Sort(v);
    var n := |s|;
    if n % 2 == 1 then s[n / 2] else (s[n / 2 - 1] + s[n / 2]) / 2.0
  }

  lemma MedianBounds(v: seq<real>)
    requires |v| > 0
    ensures Min(v) <= Median(v) <= Max(v)
  {
    var s := Sort(v);
    var n := |s|;
    SortedWithin(v);
    assert Min(v) <= s[n / 2] <= Max(v);
    if n % 2 == 0 {
      assert Min(v) <= s[n / 2 - 1] <= Max(v);
    }
  }

  /** How often `x` occurs in `v`. */
  function Count(v: seq<real>, x: real): nat {
    multiset(v)[x]
  }

  /** The running mode of `v[..k]`: the most frequent value of `v` among the
      first `k` elements, the smallest on ties. */
  function ModeUpTo(v: seq<real>, k: nat): (m: real)
    requires 0 < k <= |v|
    ensures m in v[..k]
    ensures forall j :: 0 <= j < k ==>
              Count(v, v[j]) < Count(v, m) || (Count(v, v[j]) == Count(v, m) && m <= v[j])
  {
    if k == 1 then v[0]
    else
      var m := ModeUpTo(v, k - 1);
      var x := v[k - 1];
      assert v[..k] == v[..k - 1] + [x];
      if Count(v, x) > Count(v, m) || (Count(v, x) == Count(v, m) && x < m) then x else m
  }

  /** `scipy.stats.mode(v).mode[0]`: a most frequent value, the smallest one
      when several values are equally frequent. */
  function Mode(v: seq<real>): (m: real)
    requires |v| > 0
    ensures m in v
    ensures forall x :: x in v ==> Count(v, x) <= Count(v, m)
    ensures forall x :: x in v && Count(v, x) == Count(v, m) ==> m <= x
  {
    assert v[..|v|] == v;
    ModeUpTo(v, |v|)
  }

  /** `a + t·(b − a)`, the interpolation NumPy's "linear" method uses. */
  function Lerp(a: real, b: real, t: real): real {
    a + t * (b - a)
  }

  lemma LerpBetween(a: real, b: real, t: real)
    requires a <= b && 0.0 <= t <= 1.0
    ensures a <= Lerp(a, b, t) <= b
  {
    MulMonotone(0.0, t, b - a);
    MulMonotone(t, 1.0, b - a);
  }

  lemma LerpMonotone(a: real, b: real, t1: real, t2: real)
    requires a <= b && t1 <= t2
    ensures Lerp(a, b, t1) <= Lerp(a, b, t2)
  {
    MulMonotone(t1, t2, b - a);
  }

  lemma MulMonotone(x: real, y: real, c: real)
    requires x <= y && 0.0 <= c
    ensures x * c <= y * c
  {
    assert y * c - x * c == (y - x) * c;
  }

  /** The fractional rank `(n − 1)·p/100` of the p-th percentile of `n` values. */
  function Rank(n: nat, p: real): (h: real)
    requires n > 0 && 0.0 <= p <= 100.0
    ensures 0.0 <= h <= (n - 1) as real
  {
    var m := (n - 1) as real;
    MulMonotone(0.0, p, m);
    MulMonotone(p, 100.0, m);
    DivMonotone(0.0, p * m, 100.0);
    DivMonotone(p * m, 100.0 * m, 100.0);
    assert 100.0 * m / 100.0 == m;
    p * m / 100.0
  }

  lemma RankMonotone(n: nat, p1: real, p2: real)
    requires n > 0 && 0.0 <= p1 <= p2 <= 100.0
    ensures Rank(n, p1) <= Rank(n, p2)
  {
    var m := (n - 1) as real;
    MulMonotone(p1, p2, m);
    DivMonotone(p1 * m, p2 * m, 100.0);
  }

  /** `np.percentile(s, p)` with the default "linear" method, on values already
      sorted: interpolate between the elements at ⌊h⌋ and ⌊h⌋ + 1. */
  function Percentile(s: seq<real>, p: real): real
    requires |s| > 0 && 0.0 <= p <= 100.0
  {
    var h := Rank(|s|, p);
    var k := h.Floor;
    if k + 1 < |s| then Lerp(s[k], s[k + 1], h - k as real) else s[k]
  }

  /** A percentile of sorted values lies between the first and the last one. */
  lemma PercentileBounds(s: seq<real>, p: real)
    requires |s| > 0 && 0.0 <= p <= 100.0 && Sorted(s)
    ensures s[0] <= Percentile(s, p) <= s[|s| - 1]
  {
    var h := Rank(|s|, p);
    var k := h.Floor;
    if k + 1 < |s| {
      LerpBetween(s[k], s[k + 1], h - k as real);
    }
  }

  /** Percentiles are monotone in `p`. */
  lemma PercentileMonotone(s: seq<real>, p1: real, p2: real)
    requires |s| > 0 && 0.0 <= p1 <= p2 <= 100.0 && Sorted(s)
    ensures Percentile(s, p1) <= Percentile(s, p2)
  {
    var n := |s|;
    RankMonotone(n, p1, p2);
    var h1, h2 := Rank(n, p1), Rank(n, p2);
    var k1, k2 := h1.Floor, h2.Floor;
    assert k1 <= k2;
    if k1 == k2 {
      if k1 + 1 < n {
        LerpMonotone(s[k1], s[k1 + 1], h1 - k1 as real, h2 - k2 as real);
      }
    } else {
      LerpBetween(s[k1], s[k1 + 1], h1 - k1 as real);
      if k2 + 1 < n {
        LerpBetween(s[k2], s[k2 + 1], h2 - k2 as real);
      }
    }
  }

  /** The quartiles of `v` and its 99th percentile lie in order between its
      minimum and its maximum. */
  lemma QuartilesOrdered(v: seq<real>)
    requires |v| > 0
    ensures var s := Sort(v);
      Min(v) <= Percentile(s, 25.0) <= Percentile(s, 75.0) <= Percentile(s, 99.0) <= Max(v)
  {
    var s := Sort(v);
    SortedWithin(v);
    assert Min(v) <= s[0] && s[|s| - 1] <= Max(v);
    PercentileBounds(s, 25.0);
    PercentileBounds(s, 99.0);
    PercentileMonotone(s, 25.0, 75.0);
    PercentileMonotone(s, 75.0, 99.0);
  }

  /** The median is the 50th percentile of the sorted values: the two NumPy
      definitions agree. */
  lemma MedianIsPercentile50(v: seq<real>)
    requires |v| > 0
    ensures |Sort(v)| == |v| && Median(v) == Percentile(Sort(v), 50.0)
  {
    SortedWithin(v);
    MiddleIsPercentile50(Sort(v));
  }

  lemma MiddleIsPercentile50(s: seq<real>)
    requires |s| > 0
    ensures Percentile(s, 50.0) ==
            if |s| % 2 == 1 then s[|s| / 2] else (s[|s| / 2 - 1] + s[|s| / 2]) / 2.0
  {
    var n := |s|;
    var m := n / 2;
    var h := Rank(n, 50.0);
    assert h == (n - 1) as real / 2.0;
    if n % 2 == 1 {
      assert (n - 1) as real == 2.0 * m as real;
      assert h == m as real;
      assert h.Floor == m;
    } else {
      assert (n - 1) as real == 2.0 * m as real - 1.0;
      assert h == (m - 1) as real + 0.5;
      assert h.Floor == m - 1;
    }
  }

  /** Python's `round(x)`: the nearest integer, ties to the even one. */
  function RoundHalfEven(x: real): (n: int)
    ensures x - 0.5 <= n as real <= x + 0.5
    ensures (n as real - x == 0.5 || x - n as real == 0.5) ==> n % 2 == 0
  {
    var f := x.Floor;
    var d := x - f as real;
    if d < 0.5 then f
    else if d > 0.5 then f + 1
    else if f % 2 == 0 then f
    else f + 1
  }

  /** `round(x, 2)`: `x` rounded to a multiple of 0.01, ties to even. */
  function Round2(x: real): (r: real)
    ensures x - 0.005 <= r <= x + 0.005
  {
    RoundHalfEven(x * 100.0) as real / 100.0
  }

  /** Rounding to two decimals keeps a value of [0, 100] inside [0, 100]. */
  lemma Round2Range(x: real)
    requires 0.0 <= x <= 100.0
    ensures 0.0 <= Round2(x) <= 100.0
  {
    var n := RoundHalfEven(x * 100.0);
    assert n as real >= -0.5;
    assert n as real <= 10000.5;
  }

  /** An integer is its own rounding. */
  lemma RoundIntegral(n: int)
    ensures RoundHalfEven(n as real) == n
  {
    assert (n as real).Floor == n;
  }
}

=== FILE: tables.dfy ===
/**
 * Result tables as pandas holds them once an analysis has built its
 * DataFrame: a header of column labels and rows of cells, keyed by the
 * `Feature` column, and the left merge that assembles the report.
 */
module Tables {
  import opened Columns

  /** One cell of a result table; `NaN` is an undefined statistic or a cell
      a left join could not fill. */
  datatype Field = Text(text: string) | Real(x: real) | Int(n: int) | DType(kind: Kind) | NaN

  type Row = seq<Field>

  datatype Table = Table(header: seq<string>, rows: seq<Row>)

  /** The join key of every analysis table. */
  const KeyLabel := "Feature"

  /** The key column comes first and every row has one cell per label. */
  predicate WellFormed(t: Table) {
    |t.header| >= 1 && t.header[0] == KeyLabel &&
    forall r :: r in t.rows ==> |r| == |t.header|
  }

  /** The `Feature` column, top to bottom. */
  function Keys(t: Table): (ks: seq<Field>)
    requires WellFormed(t)
    ensures |ks| == |t.rows|
  {
    seq(|t.rows|, i requires 0 <= i < |t.rows| => t.rows[i][0])
  }

  predicate UniqueKeys(t: Table)
    requires WellFormed(t)
  {
    forall i, j :: 0 <= i < j < |t.rows| ==> t.rows[i][0] != t.rows[j][0]
  }

  /** The rows whose key is `k`, in table order. */
  function Matches(rows: seq<Row>, k: Field): (ms: seq<Row>)
    requires forall r :: r in rows ==> |r| >= 1
    ensures forall m :: m in ms ==> m in rows && m[0] == k
  {
    if rows == [] then []
    else
      (if rows[0][0] == k then [rows[0]] else []) + Matches(rows[1..], k)
  }

  /** `n` cells a left join leaves undefined. */
  function Pad(n: nat): (p: seq<Field>)
    ensures |p| == n && forall f :: f in p ==> f == NaN
  {
    seq(n, _ => NaN)
  }

  /** The joined rows for one left row: one per matching right row, or the
      left row padded with NaN when nothing matches. */
  function JoinRow(l: Row, r: Table): (out: seq<Row>)
    requires |l| >= 1 && WellFormed(r)
    ensures |out| >= 1
    ensures forall o :: o in out ==> |o| == |l| + |r.header| - 1
  {
    var ms := Matches(r.rows, l[0]);
    if ms == [] then [l + Pad(|r.header| - 1)]
    else seq(|ms|, i requires 0 <= i < |ms| => l + ms[i][1..])
  }

  function JoinRows(ls: seq<Row>, r: Table, width: nat): (out: seq<Row>)
    requires width >= 1 && WellFormed(r)
    requires forall l :: l in ls ==> |l| == width
    ensures |out| >= |ls|
    ensures forall o :: o in out ==> |o| == width + |r.header| - 1
  {
    if ls == [] then []
    else JoinRow(ls[0], r) + JoinRows(ls[1..], r, width)
  }

  /** `pd.merge(left, right, on='Feature', how='left')`: every left row is
      kept, in left order, and extended with the non-key columns of the
      matching right rows. The labels are concatenated as they stand: pandas
      suffixes clashing non-key labels with `_x`/`_y`, which cannot happen in
      the report, whose analysis tables share no label but `Feature`
      (`ReportFacts.ReportLabelsDistinct`). */
  function LeftJoin(l: Table, r: Table): (j: Table)
    requires WellFormed(l) && WellFormed(r)
    ensures WellFormed(j)
    ensures j.header == l.header + r.header[1..]
    ensures |j.rows| >= |l.rows|
  {
    Table(l.header + r.header[1..], JoinRows(l.rows, r, |l.header|))
  }

  /** What a left row is extended with when the right keys are unique: the
      non-key cells of its match, or NaN padding. */
  function Lookup(r: Table, k: Field): (cells: seq<Field>)
    requires WellFormed(r)
    ensures |cells| == |r.header| - 1
  {
    var ms := Matches(r.rows, k);
    if ms == [] then Pad(|r.header| - 1) else ms[0][1..]
  }

  /** A key no row carries matches nothing. */
  lemma {:induction false} MatchesNone(rows: seq<Row>, k: Field)
    requires forall r :: r in rows ==> |r| >= 1 && r[0] != k
    ensures Matches(rows, k) == []
  {
    if rows != [] {
      assert forall r :: r in rows[1..] ==> r in rows;
      MatchesNone(rows[1..], k);
    }
  }

  /** With unique keys a key matches at most the one row that carries it. */
  lemma {:induction false} MatchesUnique(rows: seq<Row>, k: Field)
    requires forall r :: r in rows ==> |r| >= 1
    requires forall i, j :: 0 <= i < j < |rows| ==> rows[i][0] != rows[j][0]
    ensures |Matches(rows, k)| <= 1
    ensures forall i :: 0 <= i < |rows| && rows[i][0] == k ==> Matches(rows, k) == [rows[i]]
  {
    if rows != [] {
      var tail := rows[1..];
      assert forall r :: r in tail ==> r in rows;
      MatchesUnique(tail, k);
      if rows[0][0] == k {
        forall r | r in tail ensures r[0] != k {
          var i :| 0 <= i < |tail| && tail[i] == r;
          assert rows[i + 1] == r;
        }
        MatchesNone(tail, k);
      }
      forall i | 0 <= i < |rows| && rows[i][0] == k ensures Matches(rows, k) == [rows[i]] {
        if i > 0 {
          assert tail[i - 1] == rows[i];
        }
      }
    }
  }

  /** Under unique right keys a left row joins to exactly one row. */
  lemma JoinRowUnique(l: Row, r: Table)
    requires |l| >= 1 && WellFormed(r) && UniqueKeys(r)
    ensures JoinRow(l, r) == [l + Lookup(r, l[0])]
  {
    MatchesUnique(r.rows, l[0]);
  }

  /** Left join against unique right keys: exactly one output row per left
      row, in left order, each the left row extended by its lookup. */
  lemma {:induction false} JoinRowsUnique(ls: seq<Row>, r: Table, width: nat)
    requires width >= 1 && WellFormed(r) && UniqueKeys(r)
    requires forall l :: l in ls ==> |l| == width
    ensures |JoinRows(ls, r, width)| == |ls|
    ensures forall i :: 0 <= i < |ls| ==>
              JoinRows(ls, r, width)[i] == ls[i] + Lookup(r, ls[i][0])
  {
    if ls != [] {
      var tail := ls[1..];
      assert forall l :: l in tail ==> l in ls;
      JoinRowsUnique(tail, r, width);
      JoinRowUnique(ls[0], r);
      JoinRowsCons(ls, r, width);
    }
  }

  /** Indexing into `[head] + rest` when `rest` is the join of the tail. */
  lemma JoinRowsCons(ls: seq<Row>, r: Table, width: nat)
    requires ls != [] && width >= 1 && WellFormed(r) && UniqueKeys(r)
    requires forall l :: l in ls ==> |l| == width
    requires forall l :: l in ls[1..] ==> l in ls
    requires JoinRow(ls[0], r) == [ls[0] + Lookup(r, ls[0][0])]
    requires |JoinRows(ls[1..], r, width)| == |ls[1..]|
    requires forall i :: 0 <= i < |ls[1..]| ==>
               JoinRows(ls[1..], r, width)[i] == ls[1..][i] + Lookup(r, ls[1..][i][0])
    ensures |JoinRows(ls, r, width)| == |ls|
    ensures forall i :: 0 <= i < |ls| ==>
              JoinRows(ls, r, width)[i] == ls[i] + Lookup(r, ls[i][0])
  {
    var rest := JoinRows(ls[1..], r, width);
    assert JoinRows(ls, r, width) == [ls[0] + Lookup(r, ls[0][0])] + rest;
    forall i | 0 <= i < |ls|
      ensures JoinRows(ls, r, width)[i] == ls[i] + Lookup(r, ls[i][0])
    {
      if i > 0 {
        assert ls[1..][i - 1] == ls[i];
      }
    }
  }

  /** A left join with unique right keys keeps the left table's rows and
      keys exactly, in order. */
  lemma LeftJoinKeepsLeftRows(l: Table, r: Table)
    requires WellFormed(l) && WellFormed(r) && UniqueKeys(r)
    ensures |LeftJoin(l, r).rows| == |l.rows|
    ensures forall i :: 0 <= i < |l.rows| ==>
              LeftJoin(l, r).rows[i] == l.rows[i] + Lookup(r, l.rows[i][0])
    ensures Keys(LeftJoin(l, r)) == Keys(l)
  {
    var j := LeftJoin(l, r);
    JoinRowsUnique(l.rows, r, |l.header|);
    assert j.rows == JoinRows(l.rows, r, |l.header|);
    forall i | 0 <= i < |l.rows| ensures Keys(j)[i] == Keys(l)[i] {
      assert l.rows[i] in l.rows;
      assert j.rows[i] == l.rows[i] + Lookup(r, l.rows[i][0]);
    }
  }

  /** When both tables list the same unique keys in the same order, row `i`
      of the join is row `i` of the left table followed by the non-key cells
      of row `i` of the right table. */
  lemma LeftJoinAligned(l: Table, r: Table)
    requires WellFormed(l) && WellFormed(r) && UniqueKeys(r)
    requires Keys(l) == Keys(r)
    ensures |LeftJoin(l, r).rows| == |l.rows|
    ensures forall i :: 0 <= i < |l.rows| ==>
              LeftJoin(l, r).rows[i] == l.rows[i] + r.rows[i][1..]
  {
    LeftJoinKeepsLeftRows(l, r);
    forall i | 0 <= i < |l.rows|
      ensures LeftJoin(l, r).rows[i] == l.rows[i] + r.rows[i][1..]
    {
      assert Keys(l)[i] == Keys(r)[i];
      assert r.rows[i] in r.rows;
      MatchesUnique(r.rows, l.rows[i][0]);
    }
  }

  predicate AllWellFormed(ts: seq<Table>) {
    forall k :: 0 <= k < |ts| ==> WellFormed(ts[k])
  }

  /** The header of a merged report: the first table's labels followed by
      every later table's non-key labels, in join order. */
  function MergedHeader(ts: seq<Table>): seq<string>
    requires |ts| >= 1 && AllWellFormed(ts)
  {
    if |ts| == 1 then ts[0].header
    else
      assert WellFormed(ts[|ts| - 1]);
      MergedHeader(ts[..|ts| - 1]) + ts[|ts| - 1].header[1..]
  }

  /** `reduce(lambda left, right: pd.merge(left, right, on='Feature',
      how='left'), ts)`: left joins threaded from the first table. */
  function MergeAll(ts: seq<Table>): (m: Table)
    requires |ts| >= 1 && AllWellFormed(ts)
    ensures WellFormed(m) && m.header == MergedHeader(ts)
    ensures |m.rows| >= |ts[0].rows|
  {
    if |ts| == 1 then ts[0]
    else
      assert WellFormed(ts[|ts| - 1]);
      LeftJoin(MergeAll(ts[..|ts| - 1]), ts[|ts| - 1])
  }

  /** With unique keys in every table after the first, the merged report has
      exactly the first table's keys, in its order. */
  lemma {:induction false} MergeAllKeepsFirstKeys(ts: seq<Table>)
    requires |ts| >= 1 && AllWellFormed(ts)
    requires forall k :: 1 <= k < |ts| ==> UniqueKeys(ts[k])
    ensures Keys(MergeAll(ts)) == Keys(ts[0])
  {
    if |ts| > 1 {
      var init := ts[..|ts| - 1];
      MergeAllKeepsFirstKeys(init);
      LeftJoinKeepsLeftRows(MergeAll(init), ts[|ts| - 1]);
    }
  }

  /** Every table has at least `n` rows. */
  predicate AllHaveRows(ts: seq<Table>, n: nat) {
    forall k :: 0 <= k < |ts| ==> n <= |ts[k].rows|
  }

  /** Row `i` of every table side by side, the key of all but the first
      dropped. */
  function RowAcross(ts: seq<Table>, i: nat): Row
    requires |ts| >= 1 && AllWellFormed(ts) && AllHaveRows(ts, i + 1)
  {
    if |ts| == 1 then ts[0].rows[i]
    else
      var last := ts[|ts| - 1];
      assert WellFormed(last) && last.rows[i] in last.rows;
      RowAcross(ts[..|ts| - 1], i) + last.rows[i][1..]
  }

  /** All tables list the same unique keys in the same order. */
  predicate Aligned(ts: seq<Table>)
    requires |ts| >= 1 && AllWellFormed(ts)
  {
    forall k :: 0 <= k < |ts| ==> Keys(ts[k]) == Keys(ts[0]) && UniqueKeys(ts[k])
  }

  /** When all tables are aligned, the merged report has one row per key and
      row `i` is row `i` of every table side by side. */
  lemma {:induction false} MergeAllAligned(ts: seq<Table>)
    requires |ts| >= 1 && AllWellFormed(ts) && Aligned(ts)
    ensures AllHaveRows(ts, |ts[0].rows|)
    ensures |MergeAll(ts).rows| == |ts[0].rows|
    ensures Keys(MergeAll(ts)) == Keys(ts[0])
    ensures forall i :: 0 <= i < |ts[0].rows| ==> MergeAll(ts).rows[i] == RowAcross(ts, i)
  {
    AlignedRows(ts);
    if |ts| > 1 {
      var init := ts[..|ts| - 1];
      AlignedInit(ts);
      MergeAllAligned(init);
      MergeAllAlignedStep(ts, init);
    }
  }

  /** `rows` are the tables' rows side by side, row for row. */
  predicate SideBySide(ts: seq<Table>, rows: seq<Row>)
    requires |ts| >= 1 && AllWellFormed(ts)
  {
    AllHaveRows(ts, |rows|) && forall i :: 0 <= i < |rows| ==> rows[i] == RowAcross(ts, i)
  }

  /** Every table is well formed and lists the same distinct keys, in the
      same order. */
  predicate KeyedBy(ts: seq<Table>, keys: seq<Field>) {
    |ts| >= 1 && AllWellFormed(ts) &&
    (forall k :: 0 <= k < |ts| ==> Keys(ts[k]) == keys) &&
    (forall i, j :: 0 <= i < j < |keys| ==> keys[i] != keys[j])
  }

  /** Tables keyed alike merge into one row per key, keyed as they are. */
  lemma MergeAllOnKeys(ts: seq<Table>, keys: seq<Field>, merged: Table)
    requires KeyedBy(ts, keys) && merged == MergeAll(ts)
    ensures |merged.rows| == |keys| && Keys(merged) == keys && SideBySide(ts, merged.rows)
  {
    AlignedOn(ts, keys);
    MergeAllAligned(ts);
    assert |Keys(ts[0])| == |ts[0].rows|;
  }

  /** Row `i` of such a merge is row `i` of every table side by side. */
  lemma MergeAllRowAt(ts: seq<Table>, keys: seq<Field>, merged: Table, i: nat)
    requires KeyedBy(ts, keys) && merged == MergeAll(ts) && i < |keys|
    ensures AllHaveRows(ts, i + 1) && i < |merged.rows|
    ensures merged.rows[i] == RowAcross(ts, i)
  {
    AlignedOn(ts, keys);
    MergeAllAligned(ts);
    assert |Keys(ts[0])| == |ts[0].rows|;
  }

  lemma AlignedRows(ts: seq<Table>)
    requires |ts| >= 1 && AllWellFormed(ts) && Aligned(ts)
    ensures AllHaveRows(ts, |ts[0].rows|)
  {
    assert forall k :: 0 <= k < |ts| ==> |Keys(ts[k])| == |Keys(ts[0])|;
  }

  lemma AlignedInit(ts: seq<Table>)
    requires |ts| >= 2 && AllWellFormed(ts) && Aligned(ts)
    ensures AllWellFormed(ts[..|ts| - 1]) && Aligned(ts[..|ts| - 1])
  {
    assert forall k :: 0 <= k < |ts| - 1 ==> ts[..|ts| - 1][k] == ts[k];
  }

  lemma MergeAllAlignedStep(ts: seq<Table>, init: seq<Table>)
    requires |ts| >= 2 && AllWellFormed(ts) && Aligned(ts) && init == ts[..|ts| - 1]
    requires AllWellFormed(init) && Aligned(init)
    requires AllHaveRows(ts, |ts[0].rows|)
    requires |MergeAll(init).rows| == |ts[0].rows|
    requires Keys(MergeAll(init)) == Keys(ts[0])
    requires forall i :: 0 <= i < |ts[0].rows| ==> MergeAll(init).rows[i] == RowAcross(init, i)
    ensures |MergeAll(ts).rows| == |ts[0].rows|
    ensures Keys(MergeAll(ts)) == Keys(ts[0])
    ensures forall i :: 0 <= i < |ts[0].rows| ==> MergeAll(ts).rows[i] == RowAcross(ts, i)
  {
    var last := ts[|ts| - 1];
    var left := MergeAll(init);
    assert WellFormed(last) && UniqueKeys(last) && Keys(left) == Keys(last);
    LeftJoinAligned(left, last);
    LeftJoinKeepsLeftRows(left, last);
    assert MergeAll(ts) == LeftJoin(left, last);
    forall i | 0 <= i < |ts[0].rows| ensures MergeAll(ts).rows[i] == RowAcross(ts, i) {
      assert RowAcross(ts, i) == RowAcross(init, i) + last.rows[i][1..];
    }
  }

  /** One more table in the join: its non-key labels and cells follow. */
  lemma AcrossSnoc(ts: seq<Table>, t: Table, i: nat)
    requires |ts| >= 1 && AllWellFormed(ts) && WellFormed(t)
    ensures AllWellFormed(ts + [t])
    ensures MergedHeader(ts + [t]) == MergedHeader(ts) + t.header[1..]
    ensures AllHaveRows(ts, i + 1) && i < |t.rows| ==>
      AllHaveRows(ts + [t], i + 1) && RowAcross(ts + [t], i) == RowAcross(ts, i) + t.rows[i][1..]
  {
    var us := ts + [t];
    assert us[..|us| - 1] == ts && us[|us| - 1] == t;
    assert forall k :: 0 <= k < |ts| ==> us[k] == ts[k];
  }

  /** The header of a join of four tables, spelled out. */
  lemma MergedHeaderOfFour(a: Table, b: Table, c: Table, d: Table)
    requires WellFormed(a) && WellFormed(b) && WellFormed(c) && WellFormed(d)
    ensures AllWellFormed([a] + [b] + [c] + [d])
    ensures MergedHeader([a] + [b] + [c] + [d]) == a.header + b.header[1..] + c.header[1..] + d.header[1..]
  {
    var t1 := [a];
    assert AllWellFormed(t1) && MergedHeader(t1) == a.header;
    AcrossSnoc(t1, b, 0);
    var t2 := t1 + [b];
    AcrossSnoc(t2, c, 0);
    var t3 := t2 + [c];
    AcrossSnoc(t3, d, 0);
  }

  /** The header of a join of five tables, spelled out. */
  lemma MergedHeaderOfFive(a: Table, b: Table, c: Table, d: Table, e: Table)
    requires WellFormed(a) && WellFormed(b) && WellFormed(c) && WellFormed(d) && WellFormed(e)
    ensures AllWellFormed([a] + [b] + [c] + [d] + [e])
    ensures MergedHeader([a] + [b] + [c] + [d] + [e]) ==
            a.header + b.header[1..] + c.header[1..] + d.header[1..] + e.header[1..]
  {
    MergedHeaderOfFour(a, b, c, d);
    AcrossSnoc([a] + [b] + [c] + [d], e, 0);
  }

  lemma AllWellFormedOfFour(a: Table, b: Table, c: Table, d: Table)
    requires WellFormed(a) && WellFormed(b) && WellFormed(c) && WellFormed(d)
    ensures AllWellFormed([a] + [b] + [c] + [d])
  {
  }

  lemma AllWellFormedOfFive(a: Table, b: Table, c: Table, d: Table, e: Table)
    requires WellFormed(a) && WellFormed(b) && WellFormed(c) && WellFormed(d) && WellFormed(e)
    ensures AllWellFormed([a] + [b] + [c] + [d] + [e])
  {
  }

  /** Tables that all carry the same distinct keys are aligned. */
  lemma AlignedOn(ts: seq<Table>, keys: seq<Field>)
    requires |ts| >= 1 && AllWellFormed(ts)
    requires forall k :: 0 <= k < |ts| ==> Keys(ts[k]) == keys
    requires forall i, j :: 0 <= i < j < |keys| ==> keys[i] != keys[j]
    ensures Aligned(ts)
  {
    forall k | 0 <= k < |ts| ensures UniqueKeys(ts[k]) {
      forall i, j | 0 <= i < j < |ts[k].rows| ensures ts[k].rows[i][0] != ts[k].rows[j][0] {
        assert ts[k].rows[i][0] == Keys(ts[k])[i] && ts[k].rows[j][0] == Keys(ts[k])[j];
      }
    }
  }

  lemma SameKeysOfFour(a: Table, b: Table, c: Table, d: Table, keys: seq<Field>)
    requires WellFormed(a) && WellFormed(b) && WellFormed(c) && WellFormed(d)
    requires Keys(a) == keys && Keys(b) == keys && Keys(c) == keys && Keys(d) == keys
    ensures AllWellFormed([a] + [b] + [c] + [d])
    ensures forall k :: 0 <= k < 4 ==> Keys(([a] + [b] + [c] + [d])[k]) == keys
  {
  }

  lemma SameKeysOfFive(a: Table, b: Table, c: Table, d: Table, e: Table, keys: seq<Field>)
    requires WellFormed(a) && WellFormed(b) && WellFormed(c) && WellFormed(d) && WellFormed(e)
    requires Keys(a) == keys && Keys(b) == keys && Keys(c) == keys && Keys(d) == keys
    requires Keys(e) == keys
    ensures AllWellFormed([a] + [b] + [c] + [d] + [e])
    ensures forall k :: 0 <= k < 5 ==> Keys(([a] + [b] + [c] + [d] + [e])[k]) == keys
  {
    var ts := [a] + [b] + [c] + [d] + [e];
    assert ts[0] == a && ts[1] == b && ts[2] == c && ts[3] == d && ts[4] == e;
  }

  /** Row `i` across four tables, spelled out. */
  lemma RowAcrossOfFour(a: Table, b: Table, c: Table, d: Table, i: nat, ra: Row, rb: Row, rc: Row, rd: Row)
    requires WellFormed(a) && WellFormed(b) && WellFormed(c) && WellFormed(d)
    requires i < |a.rows| && i < |b.rows| && i < |c.rows| && i < |d.rows|
    requires a.rows[i] == ra && b.rows[i] == rb && c.rows[i] == rc && d.rows[i] == rd
    ensures AllWellFormed([a] + [b] + [c] + [d]) && AllHaveRows([a] + [b] + [c] + [d], i + 1)
    ensures RowAcross([a] + [b] + [c] + [d], i) == ra + rb[1..] + rc[1..] + rd[1..]
  {
    var t1 := [a];
    assert AllWellFormed(t1) && AllHaveRows(t1, i + 1) && RowAcross(t1, i) == ra;
    AcrossSnoc(t1, b, i);
    var t2 := t1 + [b];
    AcrossSnoc(t2, c, i);
    var t3 := t2 + [c];
    AcrossSnoc(t3, d, i);
  }

  /** Row `i` across five tables, spelled out. */
  lemma RowAcrossOfFive(a: Table, b: Table, c: Table, d: Table, e: Table, i: nat,
                        ra: Row, rb: Row, rc: Row, rd: Row, re: Row)
    requires WellFormed(a) && WellFormed(b) && WellFormed(c) && WellFormed(d) && WellFormed(e)
    requires i < |a.rows| && i < |b.rows| && i < |c.rows| && i < |d.rows| && i < |e.rows|
    requires a.rows[i] == ra && b.rows[i] == rb && c.rows[i] == rc && d.rows[i] == rd
    requires e.rows[i] == re
    ensures AllWellFormed([a] + [b] + [c] + [d] + [e]) && AllHaveRows([a] + [b] + [c] + [d] + [e], i + 1)
    ensures RowAcross([a] + [b] + [c] + [d] + [e], i) == ra + rb[1..] + rc[1..] + rd[1..] + re[1..]
  {
    RowAcrossOfFour(a, b, c, d, i, ra, rb, rc, rd);
    AcrossSnoc([a] + [b] + [c] + [d], e, i);
  }
}

=== FILE: wrappers.dfy ===
/** Failure-compatible wrappers shared by the model. */
module Wrappers {

  /** A possibly missing value: `None` stands for pandas' NaN / None. */
  datatype Option<+T> = None | Some(value: T)

  /** The value of a call that either returns or raises. */
  datatype Result<+T, +E> = Success(value: T) | Failure(error: E)
}
